=== FILE: README.md ===
# A Dafny model of the PaddleOCR server's result handling

`app.py` is a small Flask front end to the PaddleOCR engine. It accepts an uploaded
image or PDF, runs the engine on it, and answers with JSON. The logic of its own
that it adds to the engine is modelled here:

- **upload filter** (`allowed_file`): a file name is accepted when the part after
  its last dot, lower-cased, is one of `png jpg jpeg pdf bmp tiff tif`
  (`upload.dfy`).
- **detection side length** (`calculate_intelligent_side_len`): the larger image
  dimension times `max(0.8, 960 / m)`, rounded up, and 960 when the image cannot
  be read or the arithmetic fails (`sidelen.dfy`).
- **result normaliser** (`process_ocr_result_exact`): flattens the engine's nested
  `pages -> word_info` result into parallel lists of stripped texts, confidences
  and polygons (`normaliser.dfy`). A malformed entry is skipped. A page that cannot
  be iterated ends the traversal and keeps what was already gathered.
- **orientation heuristic** (`detect_text_orientation_improved`): labels a polygon
  horizontal, vertical or rotated. It uses the bounding box's aspect ratio and the
  direction of the first edge, with thresholds 2.5, 1.8, 25° and 155°
  (`orientation.dfy`).
- **orientation tally** (`analyze_text_orientations`) (`analysis.dfy`).
- **`/process` summary fields** built from all of the above: the joined text, the
  block count, the flags, and in detailed mode the per-block records
  (`response.dfy`).

The Python values that flow through the normaliser are an untyped datatype,
`PyValue.Val`, with `None` standing for the exception Python would raise.
`PyText` supplies `str.strip()`, the ASCII part of `str.lower()`, and the decimal
literals `float()` accepts. `float()` strips less than `str.strip()`: it keeps
the separators U+001C to U+001F, so a score padded with one is rejected.

Three inputs the server gets from elsewhere are parameters of the model:
- the image size read from disk;
- `str()` of a non-string value (`PyValue.Render`);
- the angle `abs(arctan2(dy, dx)) * 180 / pi` of an edge (`Orientation.EdgeAngle`).

Lemmas that need concrete angles assume only `Orientation.IsEdgeAngle`: the angle
lies in [0, 180], a rightward edge is 0°, a leftward one 180° and a vertical one
90°.

Two behaviours of the code worth noting:
- **every polygon is labelled and counted.** A polygon with fewer than four points
  counts as horizontal, so the tally's total is the number of blocks. It is not
  the number of non-degenerate polygons.
- **a truthy page that cannot be iterated ends the whole traversal** (the outer
  `try`). It is not skipped like a malformed entry.

## Model

| member | source | states |
|---|---|---|
| Upload.AllowedFile | app.py:31-32 | `allowed_file`: a dot in the name, and the text after the last one, lower-cased, among the extensions; characterised by the rows below |
| Upload.AcceptedNameShape | app.py:23-32 | an accepted name holds a dot and is at least four characters long, the shortest extension having three letters |
| Upload.AllowedFileIff | app.py:23-32 | a name is accepted exactly when it is `stem.ext`, `ext` holds no dot, and the lower-cased `ext` is one of the seven extensions |
| Upload.AllowedFileOfParts | app.py:31-32 | only the text after the last dot decides, whatever the stem holds (dots included) |
| Upload.NoExtensionRejected | app.py:31-32 | a name without a dot, or ending in a dot, is rejected |
| Upload.AllowedFileIgnoresCase | app.py:32 | lower-casing the name first does not change the verdict |
| Upload.AcceptedExamples | app.py:23-32 | `scan.PDF`, `a.b.tif` and `.png` are accepted |
| Upload.RejectedExample | app.py:23-32 | a `.txt` name is rejected whatever its stem |
| SideLen.CalculateIntelligentSideLen | app.py:37-39 | an image that cannot be read gets the default 960 |
| SideLen.SideLenClosedForm | app.py:42 | the side length is 960 up to a larger dimension of 1200 pixels, and the ceiling of 80% of it beyond, which is `(4m + 4) / 5` in integers |
| SideLen.SideLenFor | app.py:42-46 | the side length is never below 960, nor below 80% of the larger dimension, also when both dimensions are 0 and the division fails |
| SideLen.SideLenMonotone | app.py:42 | a larger image never gets a smaller side length |
| Orientation.DetectOrientation | app.py:100-128 | a label other than horizontal is given only to a value that reads as a polygon of at least four numeric points |
| Orientation.Classify | app.py:107-125 | a label other than horizontal needs at least four points, and a rotated one a positive width and a first edge strictly between 25° and 155° |
| Orientation.DegenerateIsHorizontal | app.py:100-128 | a value without a length, with fewer than four points, or whose points cannot be read as numeric pairs is horizontal |
| Orientation.DetectReadsPolygon | app.py:102-125 | on a readable polygon the Python function agrees with the geometric classifier |
| Orientation.ZeroWidthIsVertical | app.py:107-111 | four or more points sharing one x coordinate are vertical |
| Orientation.TallIsVertical | app.py:113-119 | a box more than 2.5 times as tall as wide is vertical, whatever its first edge |
| Orientation.RotatedIff | app.py:103-125 | rotated exactly when there are at least four points, the width is positive, the height is at most 2.5 widths and the first edge lies strictly between 25° and 155° |
| Orientation.VerticalIff | app.py:103-125 | vertical exactly when the width is zero, or the box is taller than 2.5 widths, or it is taller than 1.8 widths and its first edge is outside (25°, 155°) |
| Orientation.HorizontalIff | app.py:103-128 | horizontal exactly when there are fewer than four points, or the box is at most 1.8 widths tall with its first edge outside (25°, 155°) |
| Orientation.TranslationInvariant | app.py:104-125 | moving a polygon does not change its label |
| Orientation.BoxExamples | app.py:107-125 | an axis-aligned box listed with its first edge running right is horizontal up to 1.8 times as tall as wide, and vertical beyond |
| Orientation.BoxUpExamples | app.py:107-125 | the same box listed with its first edge running up is rotated up to 2.5 times as tall as wide, and vertical beyond |
| Orientation.BoxFromPythonLists | app.py:103-105 | a box given as nested Python lists of integers is read as that box |
| Orientation.TwoPointsExample | app.py:103-128 | two points are too few to classify, so even a tall edge is horizontal |
| Analysis.OrientationTally | app.py:130-138 | the tally of the polygons' labels counts every polygon once |
| Analysis.LabelsAt | app.py:134-135 | label `i` of the pass is the label of polygon `i` |
| Analysis.CountsPartition | app.py:132-136 | every block is counted under exactly one of the three labels |
| Analysis.CountPositiveIff | app.py:136 | a label's count is positive exactly when the label occurs |
| Analysis.SomePolygonHasLabel | app.py:130-138 | a label's count is positive exactly when some polygon receives that label |
| Analysis.AnalyzeTextOrientations | app.py:130-138 | each label's count is the number of polygons the heuristic gives that label, and the counts sum to the number of polygons |
| Normaliser.ReadEntries | app.py:157-175 | the records of one page's entries: at most one per entry, each with a non-empty stripped text |
| Normaliser.Collect | app.py:149-181 | the records gathered over the pages all have a non-empty stripped text |
| Normaliser.ReadEntry | app.py:158-175 | a `word_info` that is not skipped yields a non-empty text with no white space at either end |
| Normaliser.ReadLine | app.py:153-157 | one page aborts the traversal exactly when it is truthy and cannot be iterated |
| Normaliser.Normalise | app.py:140-182 | every text returned is non-empty and stripped |
| Normaliser.AppendEntries | app.py:157-175 | the inner loop appends the records of one page's entries, in order, to what was gathered |
| Normaliser.ProcessOcrResultExact | app.py:140-182 | the two nested loops return three lists of one length which, zipped, are the reference result `Normalise` |
| Normaliser.ZipUnzip | app.py:169-171 | the three parallel lists hold exactly the records, position by position |
| NormaliserFacts.ReadEntriesAppend | app.py:157-175 | the entries of two runs give the records of each, in order |
| NormaliserFacts.ReadEntriesFromEntries | app.py:157-171 | every record returned comes from one of the entries |
| NormaliserFacts.CollectAppend | app.py:149-181 | pages without an abort contribute their records ahead of the rest, and after an abort nothing more is gathered |
| NormaliserFacts.CollectStopsAtAbort | app.py:149-181 | a page that cannot be iterated cuts the traversal: the result is that of the pages before it |
| NormaliserFacts.CollectIsFilterMap | app.py:149-181 | the traversal is one filter-map over the entries of all pages before the first abort, in order |
| NormaliserFacts.NormaliseIsFilterMap | app.py:140-182 | a falsy or non-list result gives nothing; otherwise the result is that filter-map |
| NormaliserFacts.FalsyLineSkipped | app.py:154-155 | removing a falsy page changes nothing |
| NormaliserFacts.SkippedEntryIgnored | app.py:157-175 | removing a skipped entry, wherever it stands, changes nothing |
| NormaliserFacts.ShortEntrySkipped | app.py:159 | an entry without a length, or with fewer than two elements, is skipped |
| NormaliserFacts.BadTextDataSkipped | app.py:164 | an entry whose second element is not a list or tuple of at least two elements is skipped |
| NormaliserFacts.BadConfidenceSkipped | app.py:166-175 | any entry of two or more elements whose `text_data` is a list or tuple of two or more elements is skipped when `float()` rejects its confidence |
| NormaliserFacts.BlankTextSkipped | app.py:165-168 | any such entry whose text renders to an empty or all-white-space string is skipped, whatever its confidence |
| NormaliserFacts.EntryOfParts | app.py:159-171 | any such entry, list or tuple at either level and with extra elements allowed, whose text renders to a non-blank string and whose score converts gives the stripped text, that score and its polygon |
| NormaliserFacts.WellFormedEntryRead | app.py:159-171 | `[polygon, (text, score)]` with a non-blank text gives the stripped text, the score and the polygon, and extra elements are ignored |
| NormaliserFacts.StringScoreRead | app.py:166 | a score given as a decimal string such as `"0.95"` is read as the number it spells |
| NormaliserFacts.OverflowingScoreSkipped | app.py:166-175 | an entry whose score is an int too large for a double is skipped, since `float()` raises OverflowError |
| NormaliserFacts.SeparatorScoreSkipped | app.py:165-175 | an entry whose score is a string starting with one of U+001C to U+001F is skipped, since `float()` raises ValueError |
| NormaliserFacts.MalformedMiddleEntry | app.py:157-175 | a malformed entry between two good ones leaves exactly the records of those two, in order |
| PyValue.Iter | app.py:157 | a value can be iterated exactly when it has a length, and a falsy one yields nothing |
| PyValue.ToFloat | app.py:166 | `float()` of a bool or float is that number, an int converts exactly when its magnitude is below (2^54 - 1) * 2^970 (beyond that Python raises OverflowError) and then to its value, and only numbers and strings convert |
| PyText.Strip | app.py:165-166 | `str.strip()`, or the stripping `float()` does before parsing, which removes the same white space except U+001C to U+001F: the result has no such white space at either end and is no longer than the input |
| PyText.Lower | app.py:32 | `str.lower()` on ASCII: the same length, each letter A-Z mapped to a-z and every other character kept |
| PyText.ParseFloat | app.py:166 | a string `float()` accepts is not empty once the white space `float()` strips is removed |
| PyText.StripOfPadded | app.py:165 | stripping white space of either kind from around a text stripped of it gives that text |
| PyText.ParseFloatIgnoresPadding | app.py:166 | white space that `float()` strips (any `str.isspace` character except U+001C to U+001F) around a literal does not change what it reads |
| PyText.ParseFloatKeepsSeparators | app.py:166 | a string that starts with one of U+001C to U+001F is not a number, though `str.strip()` would remove that character |
| PyText.ParseFloatRejectsBlank | app.py:166 | a string of `str.isspace` characters, U+001C to U+001F included, is not a number |
| PyText.ParsePositiveFixedPoint | app.py:166 | a fixed-point literal `ip.fp` reads as the number it spells |
| PyText.ParseNatText | app.py:166 | the decimal digits of a natural number read back as that number |
| Response.Join | app.py:340 | `'\n'.join`: the text starts with the first text, followed by a line break when there are more |
| Response.BuildSummary | app.py:338-384 | detailed mode alone adds the details, whose `orientation_details` repeat the counts of `text_orientations` and whose blocks number `total_blocks`, one per text |
| Response.SummaryOfLabels | app.py:338-372 | built from the tally of the polygons' labels, the tally counts every polygon, `has_coordinates` holds exactly when it counts one, and each flag holds exactly when its label occurs; in detailed mode with the lists in lockstep every block is complete and carries its text and, in order, the labels |
| Response.Summarise | app.py:328-384 | the summary of one engine result: the block count is the number of normalised records, the tally is that of their polygons, and details are present exactly in detailed mode |
| Response.SplitJoin | app.py:340 | splitting the joined text at line breaks gives the texts back when there is at least one text and none holds a line break |
| Response.SummaryTextSplits | app.py:340-341 | when there is at least one record and no record text holds a line break, the response text splits back into the block texts, one per counted block |
| Response.DetailedFlag | app.py:303 | detailed mode is on exactly when the field, lower-cased, is `true`; it is off when the field is absent |
| Response.BuildBlocks | app.py:356-372 | the loop over the texts builds the blocks whose labels are the heuristic's labels of the polygons |
| Response.BlockFields | app.py:358-370 | block `i` carries text `i`, carries confidence `i` exactly when it exists, and carries polygon `i` with its label exactly when it exists |
| Response.FlagsIff | app.py:349-350 | `has_vertical_text` and `has_rotated_text` hold exactly when some polygon is classified vertical, respectively rotated |
| Response.RecordFlagsIff | app.py:331-350 | the summary of the records reports vertical, respectively rotated, text exactly when some record's polygon receives that label |
| Response.SummaryFlagsIff | app.py:328-350 | from the engine's result: `has_vertical_text` and `has_rotated_text` hold exactly when some normalised record's polygon is classified vertical, respectively rotated |
| Response.BlocksAgreeWithTally | app.py:356-384 | with as many polygons as texts, every block has all fields and the blocks' labels, counted, give the tally |
| Response.RecordsSummaryComplete | app.py:338-384 | in detailed mode, block `i` carries exactly record `i`, the tally's total equals the block count and the polygon count, and the blocks' labels give the tally |
| Response.SummariseComplete | app.py:328-384 | from the engine's result to the response: block `i` carries record `i` of the normalised result, whose texts are non-empty and stripped, and the blocks' labels give the tally |

## Left out

- Flask routing, the HTML page, `request`/`jsonify`, the temporary file, timings, `secure_filename`, the OCR engine's initialisation and its per-language cache: none of these holds logic of the server's own.
- `cv2.imread` and the image shape: the shape is a parameter, `None` when the image cannot be read.
- `print` diagnostics: they do not affect any result.
- `avg_confidence`, `min_confidence`, `max_confidence` and `round(…, 3)`: they are float statistics, and the model keeps confidences as exact reals, unrounded.
- SideLen.SideLenFor: computes in exact reals, not IEEE doubles. In doubles `960 / m * m` can exceed 960 by a rounding error, so the source returns 961 for some sizes of 1200 pixels or less (29 pixels is the smallest); the model returns 960 there.
- SideLen.SideLenClosedForm: holds in exact reals only; in doubles the side length is 961 rather than 960 for some larger dimensions up to 1200 pixels.
- SideLen.SideLenMonotone: holds in exact reals only; in doubles the source is not monotone (a 29-pixel image gets 961, a 30-pixel one 960).
- Orientation.EdgeAngle: `np.arctan2` and floating-point trigonometry are a parameter, not a definition.
- Orientation.DetectOrientation: aspect ratios and comparisons are exact reals, not IEEE doubles.
- PyValue.Render: Python's `str()` of floats, lists and other objects is a parameter.
- PyValue.Val: numpy arrays are `Opaque` values. The model therefore has no `len` or indexing for an array-valued polygon and labels any such polygon horizontal, where the source classifies it from its points both in the tally and, after `coords.tolist()`, in detailed mode. A page given as an array ends the traversal in the model; in the source a multi-element array does too, since its truthiness raises ValueError, but a one-element array would be iterated. Dicts, sets and bytes are likewise only approximated by `Opaque`: an empty one given as a page is falsy and skipped in the source but ends the traversal in the model, and a non-empty one is iterated in the source (a dict over its keys) where the model ends the traversal; a dict given as an entry with keys 0 and 1 is read in the source and skipped in the model.
- PyValue.ToFloat: an int in the double range converts to its exact value, not to the nearest double; ints beyond 2^53 are rounded by Python.
- PyText.ParseFloat: does not accept `inf`, `nan`, `infinity`, digit-group underscores or non-ASCII digits, and has no overflow. Negative literals are parsed, but no lemma states their value.
- PyText.Lower: maps ASCII letters only. Python's full Unicode lower-casing is not modelled.
- Normaliser.ProcessOcrResultExact: the three parallel lists grow in lockstep, so the method keeps them as one list of records and returns its three projections.

=== FILE: analysis.dfy ===
/** The per-request orientation tally: how many text blocks received each label. */
module Analysis {
  import opened PyValue
  import opened Orientation

  datatype Tally = Tally(horizontal: nat, vertical: nat, rotated: nat) {

    function Get(l: Label): nat {
      match l
      case Horizontal => horizontal
      case Vertical => vertical
      case Rotated => rotated
    }

    function Total(): nat {
      horizontal + vertical + rotated
    }

    /** `orientations[l] += 1` */
    function Add(l: Label): (t: Tally)
      ensures t.Get(l) == Get(l) + 1
      ensures forall k :: k != l ==> t.Get(k) == Get(k)
    {
      match l
      case Horizontal => this.(horizontal := horizontal + 1)
      case Vertical => this.(vertical := vertical + 1)
      case Rotated => this.(rotated := rotated + 1)
    }
  }

  /** The label of every polygon, in order. */
  function Labels(polys: seq<Val>, angle: EdgeAngle): (ls: seq<Label>)
    ensures |ls| == |polys|
  {
    if |polys| == 0 then []
    else Labels(polys[..|polys| - 1], angle) + [DetectOrientation(polys[|polys| - 1], angle)]
  }

  /** Entry `i` of the labels is the label of polygon `i`. */
  lemma {:induction false} LabelsAt(polys: seq<Val>, i: nat, angle: EdgeAngle)
    requires i < |polys|
    ensures Labels(polys, angle)[i] == DetectOrientation(polys[i], angle)
  {
    var n := |polys| - 1;
    var init := Labels(polys[..n], angle);
    assert Labels(polys, angle) == init + [DetectOrientation(polys[n], angle)];
    if i < n {
      LabelsAt(polys[..n], i, angle);
      assert polys[..n][i] == polys[i];
      assert Labels(polys, angle)[i] == init[i];
    }
  }

  /** How many entries of `ls` are `l`. */
  function Count(ls: seq<Label>, l: Label): nat {
    if |ls| == 0 then 0
    else Count(ls[..|ls| - 1], l) + (if ls[|ls| - 1] == l then 1 else 0)
  }

  /** The number of polygons in `polys` that the classifier labels `l`. */
  function CountLabel(polys: seq<Val>, l: Label, angle: EdgeAngle): nat {
    Count(Labels(polys, angle), l)
  }

  /** Every entry is counted under exactly one label. */
  lemma {:induction false} CountsPartition(ls: seq<Label>)
    ensures Count(ls, Horizontal) + Count(ls, Vertical) + Count(ls, Rotated) == |ls|
  {
    if |ls| > 0 {
      CountsPartition(ls[..|ls| - 1]);
    }
  }

  /** A label has a positive count exactly when it occurs. */
  lemma {:induction false} CountPositiveIff(ls: seq<Label>, l: Label)
    ensures Count(ls, l) > 0 <==> l in ls
  {
    if |ls| > 0 {
      var init := ls[..|ls| - 1];
      CountPositiveIff(init, l);
      assert ls == init + [ls[|ls| - 1]];
    }
  }

  /** A label has a positive count exactly when some polygon receives it. */
  lemma SomePolygonHasLabel(polys: seq<Val>, l: Label, angle: EdgeAngle)
    ensures CountLabel(polys, l, angle) > 0 <==>
            exists i :: 0 <= i < |polys| && DetectOrientation(polys[i], angle) == l
  {
    var ls := Labels(polys, angle);
    CountPositiveIff(ls, l);
    if l in ls {
      var i :| 0 <= i < |ls| && ls[i] == l;
      LabelsAt(polys, i, angle);
    }
    if i :| 0 <= i < |polys| && DetectOrientation(polys[i], angle) == l {
      LabelsAt(polys, i, angle);
      assert ls[i] in ls;
    }
  }

  /** The tally of a sequence of labels. */
  function TallyOf(ls: seq<Label>): (t: Tally)
    ensures t.Total() == |ls|
    ensures forall l :: t.Get(l) == Count(ls, l)
  {
    CountsPartition(ls);
    Tally(Count(ls, Horizontal), Count(ls, Vertical), Count(ls, Rotated))
  }

  /** The tally `analyze_text_orientations` is meant to produce. */
  function OrientationTally(polys: seq<Val>, angle: EdgeAngle): (t: Tally)
    ensures t.Total() == |polys|
  {
    TallyOf(Labels(polys, angle))
  }

  /** `analyze_text_orientations(coordinates_list)`: one pass over the polygons,
      adding one to the counter of each polygon's label. */
  method AnalyzeTextOrientations(polys: seq<Val>, angle: EdgeAngle) returns (t: Tally)
    ensures forall l :: t.Get(l) == CountLabel(polys, l, angle)
    ensures t.Total() == |polys|
  {
    ghost var ls := Labels(polys, angle);
    t := Tally(0, 0, 0);
    for i := 0 to |polys|
      invariant forall l :: t.Get(l) == Count(ls[..i], l)
    {
      assert ls[..i + 1] == ls[..i] + [ls[i]];
      LabelsAt(polys, i, angle);
      t := t.Add(DetectOrientation(polys[i], angle));
    }
    assert ls[..|polys|] == ls;
    CountsPartition(ls);
  }
}

=== FILE: normaliser.dfy ===
/** The result normaliser: flattens the engine's nested `pages -> word_info`
    result into three parallel lists of texts, confidences and polygons,
    skipping malformed entries and stopping early, without failing, when a page
    cannot be iterated. */
module Normaliser {
  import opened Wrappers
  import opened PyText
  import opened PyValue

  /** One recognised text block: stripped text, confidence, and the polygon as
      the engine gave it. */
  datatype Detection = Detection(text: string, confidence: real, polygon: Val)

  /** Every text is non-empty and has no white space at either end. */
  predicate CleanTexts(ds: seq<Detection>) {
    forall i :: 0 <= i < |ds| ==> ds[i].text != [] && IsStripped(ds[i].text, StrBlanks)
  }

  /** The inner `try` for one `word_info`: the record it appends, or `None` when
      the entry is skipped, whether by an exception or by an empty text. */
  function ReadEntry(w: Val, render: Render): (r: Option<Detection>)
    ensures r.Some? ==> r.value.text != [] && IsStripped(r.value.text, StrBlanks)
  {
    match Len(w)
    case None => None
    case Some(n) =>
      if n < 2 then None
      else
        var coordinates := Index(w, 0).value;
        var textData := Index(w, 1).value;
        if !IsSequence(textData) || |textData.items| < 2 then None
        else
          match PyStr(textData.items[0], render)
          case None => None
          case Some(raw) =>
            var text := Strip(raw, StrBlanks);
            match ToFloat(textData.items[1])
            case None => None
            case Some(confidence) =>
              if text == [] then None else Some(Detection(text, confidence, coordinates))
  }

  /** The inner loop over the entries of one line: the records of the entries
      that are not skipped, in order. */
  function ReadEntries(ws: seq<Val>, render: Render): (ds: seq<Detection>)
    ensures |ds| <= |ws|
    ensures CleanTexts(ds)
  {
    if |ws| == 0 then []
    else
      var rest := ReadEntries(ws[1..], render);
      match ReadEntry(ws[0], render)
      case None => rest
      case Some(d) => [d] + rest
  }

  /** A line that is truthy yet cannot be iterated: `for word_info in line`
      raises and the outer `except` ends the whole traversal. */
  predicate Aborts(line: Val) {
    Truthy(line) && Iter(line).None?
  }

  /** One iteration of the outer loop: nothing for a falsy line, `None` for a
      line that aborts the traversal, else the records of its entries. */
  function ReadLine(line: Val, render: Render): (r: Option<seq<Detection>>)
    ensures r.None? <==> Aborts(line)
  {
    if !Truthy(line) then Some([])
    else
      match Iter(line)
      case None => None
      case Some(ws) => Some(ReadEntries(ws, render))
  }

  /** The outer loop over the lines, inside the outer `try`: records line by
      line, keeping what was gathered when a line aborts. */
  function Collect(lines: seq<Val>, render: Render): (ds: seq<Detection>)
    ensures CleanTexts(ds)
  {
    if |lines| == 0 then []
    else
      match ReadLine(lines[0], render)
      case None => []
      case Some(ds) => ds + Collect(lines[1..], render)
  }

  /** `process_ocr_result_exact(ocr_result)` as one list of records: a falsy or
      non-list result has none. */
  function Normalise(result: Val, render: Render): (ds: seq<Detection>)
    ensures CleanTexts(ds)
  {
    if !Truthy(result) || !result.List? then [] else Collect(result.items, render)
  }

  /** The three parallel lists the Python function returns, seen as records. */
  function Zip3(texts: seq<string>, confidences: seq<real>, polygons: seq<Val>): (ds: seq<Detection>)
    requires |texts| == |confidences| == |polygons|
    ensures |ds| == |texts|
    ensures forall i :: 0 <= i < |ds| ==> ds[i] == Detection(texts[i], confidences[i], polygons[i])
  {
    seq(|texts|, i requires 0 <= i < |texts| => Detection(texts[i], confidences[i], polygons[i]))
  }

  function Texts(ds: seq<Detection>): (ts: seq<string>)
    ensures |ts| == |ds| && forall i :: 0 <= i < |ds| ==> ts[i] == ds[i].text
  {
    seq(|ds|, i requires 0 <= i < |ds| => ds[i].text)
  }

  function Confidences(ds: seq<Detection>): (cs: seq<real>)
    ensures |cs| == |ds| && forall i :: 0 <= i < |ds| ==> cs[i] == ds[i].confidence
  {
    seq(|ds|, i requires 0 <= i < |ds| => ds[i].confidence)
  }

  function Polygons(ds: seq<Detection>): (ps: seq<Val>)
    ensures |ps| == |ds| && forall i :: 0 <= i < |ds| ==> ps[i] == ds[i].polygon
  {
    seq(|ds|, i requires 0 <= i < |ds| => ds[i].polygon)
  }

  /** Zipping the three projections of the records gives the records back. */
  lemma ZipUnzip(ds: seq<Detection>)
    ensures Zip3(Texts(ds), Confidences(ds), Polygons(ds)) == ds
  {
  }

  /** Cutting zipped lists back apart gives the lists they were zipped from. */
  lemma UnzipZip(texts: seq<string>, confidences: seq<real>, polygons: seq<Val>)
    requires |texts| == |confidences| == |polygons|
    ensures var ds := Zip3(texts, confidences, polygons);
            Texts(ds) == texts && Confidences(ds) == confidences && Polygons(ds) == polygons
  {
  }

  /** The records of a suffix of a line: the record of its first entry, if
      any, ahead of the rest. */
  lemma ReadEntriesStep(ws: seq<Val>, j: nat, render: Render)
    requires j < |ws|
    ensures ReadEntry(ws[j], render).Some? ==>
            ReadEntries(ws[j..], render) == [ReadEntry(ws[j], render).value] + ReadEntries(ws[j + 1..], render)
    ensures ReadEntry(ws[j], render).None? ==>
            ReadEntries(ws[j..], render) == ReadEntries(ws[j + 1..], render)
  {
    assert ws[j..][0] == ws[j];
    assert ws[j..][1..] == ws[j + 1..];
  }

  /** The inner loop over the entries of one line, appending to the records;
      an entry whose `try` fails, or whose text is empty, is skipped. */
  method AppendEntries(entries: seq<Val>, render: Render, records: seq<Detection>)
    returns (records': seq<Detection>)
    ensures records' == records + ReadEntries(entries, render)
  {
    records' := records;
    var j := 0;
    while j < |entries|
      invariant 0 <= j <= |entries|
      invariant records' + ReadEntries(entries[j..], render) == records + ReadEntries(entries, render)
    {
      var entry := ReadEntry(entries[j], render);
      ReadEntriesStep(entries, j, render);
      if entry.Some? {
        ConcatAssoc(records', [entry.value], ReadEntries(entries[j + 1..], render));
        records' := records' + [entry.value];
      }
      j := j + 1;
    }
    assert entries[j..] == [];
  }

  lemma ConcatAssoc(a: seq<Detection>, b: seq<Detection>, c: seq<Detection>)
    ensures a + (b + c) == a + b + c
  {
  }

  /** One step of the outer loop: a line that does not abort contributes its
      records ahead of the rest. */
  lemma CollectStep(lines: seq<Val>, i: nat, render: Render)
    requires i < |lines|
    ensures ReadLine(lines[i], render).Some? ==>
            Collect(lines[i..], render) == ReadLine(lines[i], render).value + Collect(lines[i + 1..], render)
    ensures ReadLine(lines[i], render).None? ==> Collect(lines[i..], render) == []
  {
    assert lines[i..][0] == lines[i];
    assert lines[i..][1..] == lines[i + 1..];
  }

  /** The outer loop's invariant carried past a line that does not abort,
      once that line's records are appended. */
  lemma CollectAdvance(lines: seq<Val>, i: nat, render: Render, records: seq<Detection>, records': seq<Detection>)
    requires i < |lines|
    requires Collect(lines, render) == records + Collect(lines[i..], render)
    requires ReadLine(lines[i], render).Some?
    requires records' == records + ReadLine(lines[i], render).value
    ensures Collect(lines, render) == records' + Collect(lines[i + 1..], render)
  {
    CollectStep(lines, i, render);
    ConcatAssoc(records, ReadLine(lines[i], render).value, Collect(lines[i + 1..], render));
  }

  /** The outer loop's invariant at a line that aborts: nothing more is
      gathered. */
  lemma CollectHalts(lines: seq<Val>, i: nat, render: Render, records: seq<Detection>)
    requires i < |lines|
    requires Collect(lines, render) == records + Collect(lines[i..], render)
    requires Aborts(lines[i])
    ensures Collect(lines, render) == records
  {
    CollectStep(lines, i, render);
    assert records + [] == records;
  }

  /** `process_ocr_result_exact(ocr_result)`: the two nested loops, the inner
      `try` skipping one entry, the outer one ending the traversal. The three
      lists grow in lockstep, so they are kept as one list of records and
      returned as its three projections. */
  method ProcessOcrResultExact(result: Val, render: Render)
    returns (textLines: seq<string>, confidences: seq<real>, coordinatesList: seq<Val>)
    ensures |textLines| == |confidences| == |coordinatesList|
    ensures Zip3(textLines, confidences, coordinatesList) == Normalise(result, render)
  {
    var records: seq<Detection> := [];
    if Truthy(result) && result.List? {
      var lines := result.items;
      var i := 0;
      while i < |lines|
        invariant 0 <= i <= |lines|
        invariant Collect(lines, render) == records + Collect(lines[i..], render)
      {
        var line := lines[i];
        if Truthy(line) {
          match Iter(line)
          case None =>
            // iter(line) raised: the outer except keeps what was gathered
            CollectHalts(lines, i, render, records);
            ZipUnzip(records);
            return Texts(records), Confidences(records), Polygons(records);
          case Some(entries) =>
            var records' := AppendEntries(entries, render, records);
            CollectAdvance(lines, i, render, records, records');
            records := records';
        } else {
          CollectAdvance(lines, i, render, records, records);
        }
        i := i + 1;
      }
      assert lines[|lines|..] == [];
    }
    textLines, confidences, coordinatesList := Texts(records), Confidences(records), Polygons(records);
    ZipUnzip(records);
  }
}

/** Properties of the normaliser: a reference definition as one flat
    filter-map over the entries in traversal order, cut at the first line that
    cannot be iterated, and the per-entry skip rules. */
module NormaliserFacts {
  import opened Wrappers
  import opened PyText
  import opened PyValue
  import opened Normaliser

  /** The entries the traversal visits in one line: none for a falsy line. */
  function LineEntries(line: Val): seq<Val> {
    if !Truthy(line) then [] else Iter(line).GetOr([])
  }

  /** All entries of the lines, pages left to right and entries in order. */
  function AllEntries(lines: seq<Val>): (ws: seq<Val>)
    ensures |lines| == 0 ==> ws == []
  {
    if |lines| == 0 then [] else LineEntries(lines[0]) + AllEntries(lines[1..])
  }

  predicate NoAbort(lines: seq<Val>) {
    forall i :: 0 <= i < |lines| ==> !Aborts(lines[i])
  }

  /** Index of the first line that ends the traversal, or `|lines|`. */
  function FirstAbort(lines: seq<Val>): (k: nat)
    ensures k <= |lines|
    ensures NoAbort(lines[..k])
    ensures k < |lines| ==> Aborts(lines[k])
  {
    if |lines| == 0 then 0
    else if Aborts(lines[0]) then 0
    else
      var k := 1 + FirstAbort(lines[1..]);
      assert forall i :: 1 <= i < k ==> lines[..k][i] == lines[1..][..k - 1][i - 1];
      k
  }

  /** The records of two runs of entries are the records of each, in order. */
  lemma {:induction false} ReadEntriesAppend(a: seq<Val>, b: seq<Val>, render: Render)
    ensures ReadEntries(a + b, render) == ReadEntries(a, render) + ReadEntries(b, render)
  {
    if |a| > 0 {
      assert (a + b)[0] == a[0];
      assert (a + b)[1..] == a[1..] + b;
      ReadEntriesAppend(a[1..], b, render);
    } else {
      assert a + b == b;
    }
  }

  /** Every emitted record comes from one of the entries. */
  lemma {:induction false} ReadEntriesFromEntries(ws: seq<Val>, render: Render, k: nat)
    requires k < |ReadEntries(ws, render)|
    ensures exists i :: 0 <= i < |ws| && ReadEntry(ws[i], render) == Some(ReadEntries(ws, render)[k])
  {
    var ds := ReadEntries(ws, render);
    var rest := ReadEntries(ws[1..], render);
    match ReadEntry(ws[0], render)
    case None =>
      ReadEntriesFromEntries(ws[1..], render, k);
      var i :| 0 <= i < |ws[1..]| && ReadEntry(ws[1..][i], render) == Some(rest[k]);
      assert ws[i + 1] == ws[1..][i];
    case Some(d) =>
      if k > 0 {
        ReadEntriesFromEntries(ws[1..], render, k - 1);
        var i :| 0 <= i < |ws[1..]| && ReadEntry(ws[1..][i], render) == Some(rest[k - 1]);
        assert ws[i + 1] == ws[1..][i];
      }
  }

  /** Lines before an aborting line contribute their records; an aborting line
      ends the traversal, so nothing after it counts. */
  lemma {:induction false} CollectAppend(a: seq<Val>, b: seq<Val>, render: Render)
    ensures NoAbort(a) ==> Collect(a + b, render) == Collect(a, render) + Collect(b, render)
    ensures !NoAbort(a) ==> Collect(a + b, render) == Collect(a, render)
  {
    if |a| == 0 {
      assert a + b == b;
    } else {
      assert (a + b)[0] == a[0];
      assert (a + b)[1..] == a[1..] + b;
      CollectAppend(a[1..], b, render);
      if !Aborts(a[0]) {
        assert NoAbort(a) ==> NoAbort(a[1..]);
        assert !NoAbort(a) ==> !NoAbort(a[1..]) by {
          if !NoAbort(a) {
            var i :| 0 <= i < |a| && Aborts(a[i]);
            assert i > 0 && a[1..][i - 1] == a[i];
          }
        }
        ConcatAssoc(ReadLine(a[0], render).value, Collect(a[1..], render), Collect(b, render));
      }
    }
  }

  /** Without aborting lines the traversal is one filter-map over all entries. */
  lemma {:induction false} CollectWithoutAbort(lines: seq<Val>, render: Render)
    requires NoAbort(lines)
    ensures Collect(lines, render) == ReadEntries(AllEntries(lines), render)
  {
    if |lines| > 0 {
      assert NoAbort(lines[1..]) by {
        forall i | 0 <= i < |lines[1..]| ensures !Aborts(lines[1..][i]) {
          assert lines[1..][i] == lines[i + 1];
        }
      }
      CollectWithoutAbort(lines[1..], render);
      ReadEntriesAppend(LineEntries(lines[0]), AllEntries(lines[1..]), render);
    }
  }

  /** A line that cannot be iterated cuts the traversal: what is returned is
      what the lines before it gave. */
  lemma CollectStopsAtAbort(lines: seq<Val>, k: nat, render: Render)
    requires k < |lines| && Aborts(lines[k])
    ensures Collect(lines, render) == Collect(lines[..k], render)
  {
    assert lines == lines[..k] + lines[k..];
    assert lines[k..][0] == lines[k];
    CollectAppend(lines[..k], lines[k..], render);
  }

  /** The reference definition: the records of all entries, in traversal
      order, of the lines before the first one that cannot be iterated. */
  lemma CollectIsFilterMap(lines: seq<Val>, render: Render)
    ensures Collect(lines, render) == ReadEntries(AllEntries(lines[..FirstAbort(lines)]), render)
  {
    var k := FirstAbort(lines);
    if k < |lines| {
      CollectStopsAtAbort(lines, k, render);
    } else {
      assert lines[..k] == lines;
    }
    CollectWithoutAbort(lines[..k], render);
  }

  /** `process_ocr_result_exact` against the reference definition; a falsy or
      non-list result gives nothing. */
  lemma NormaliseIsFilterMap(result: Val, render: Render)
    ensures !Truthy(result) || !result.List? ==> Normalise(result, render) == []
    ensures Truthy(result) && result.List? ==>
            Normalise(result, render)
            == ReadEntries(AllEntries(result.items[..FirstAbort(result.items)]), render)
  {
    if Truthy(result) && result.List? {
      CollectIsFilterMap(result.items, render);
    }
  }

  /** A falsy line at the head contributes nothing and does not abort. */
  lemma FalsyHead(line: Val, b: seq<Val>, render: Render)
    requires !Truthy(line)
    ensures Collect([line] + b, render) == Collect(b, render)
  {
    assert ([line] + b)[0] == line;
    assert ([line] + b)[1..] == b;
    assert ReadLine(line, render) == Some([]);
  }

  /** A falsy line is skipped: removing it changes nothing. */
  lemma FalsyLineSkipped(a: seq<Val>, line: Val, b: seq<Val>, render: Render)
    requires !Truthy(line)
    ensures Collect(a + [line] + b, render) == Collect(a + b, render)
  {
    assert a + [line] + b == a + ([line] + b);
    CollectAppend(a, [line] + b, render);
    CollectAppend(a, b, render);
    FalsyHead(line, b, render);
  }

  /** A skipped entry changes nothing, wherever it stands in its line: the
      entries after it are still read. */
  lemma SkippedEntryIgnored(a: seq<Val>, w: Val, b: seq<Val>, render: Render)
    requires ReadEntry(w, render).None?
    ensures ReadEntries(a + [w] + b, render) == ReadEntries(a + b, render)
  {
    assert ReadEntries([w], render) == [] by {
      assert [w][1..] == [];
      assert ReadEntries([w][1..], render) == [];
    }
    ReadEntriesAppend(a + [w], b, render);
    ReadEntriesAppend(a, [w], render);
    ReadEntriesAppend(a, b, render);
    assert ReadEntries(a + [w], render) == ReadEntries(a, render);
  }

  /** An entry with fewer than two elements is skipped, as is a value without a
      length (a number, `None`, an opaque object). */
  lemma ShortEntrySkipped(w: Val, render: Render)
    requires Len(w).None? || Len(w).value < 2
    ensures ReadEntry(w, render).None?
  {
  }

  /** An entry whose second element is not a list or tuple of at least two
      elements is skipped, whatever follows it. */
  lemma BadTextDataSkipped(coordinates: Val, textData: Val, more: seq<Val>, render: Render)
    requires !IsSequence(textData) || |textData.items| < 2
    ensures ReadEntry(List([coordinates, textData] + more), render).None?
    ensures ReadEntry(Tuple([coordinates, textData] + more), render).None?
  {
    assert ([coordinates, textData] + more)[1] == textData;
  }

  /** An entry whose confidence float() rejects is skipped, whether the entry
      and its `text_data` are lists or tuples and whatever else they hold. */
  lemma BadConfidenceSkipped(w: Val, render: Render)
    requires Len(w).Some? && Len(w).value >= 2
    requires var td := Index(w, 1).value;
             IsSequence(td) && |td.items| >= 2 && ToFloat(td.items[1]).None?
    ensures ReadEntry(w, render).None?
  {
  }

  /** An entry whose text renders to an empty or all-white-space string is
      skipped, whatever its confidence and whatever the shape of the entry. */
  lemma BlankTextSkipped(w: Val, raw: string, render: Render)
    requires Len(w).Some? && Len(w).value >= 2
    requires var td := Index(w, 1).value;
             IsSequence(td) && |td.items| >= 2 && PyStr(td.items[0], render) == Some(raw)
    requires AllBlank(raw, StrBlanks)
    ensures ReadEntry(w, render).None?
  {
    StripOfPadded(raw, "", "", StrBlanks);
    assert raw + "" + "" == raw;
  }

  /** An entry `[polygon, [text, score], ...]`, list or tuple at either level,
      whose text renders and strips to a non-empty string and whose score
      float() reads gives the stripped text, the score and the polygon. */
  lemma EntryOfParts(w: Val, raw: string, c: real, render: Render)
    requires Len(w).Some? && Len(w).value >= 2
    requires var td := Index(w, 1).value;
             IsSequence(td) && |td.items| >= 2 && PyStr(td.items[0], render) == Some(raw) &&
             ToFloat(td.items[1]) == Some(c)
    requires Strip(raw, StrBlanks) != []
    ensures ReadEntry(w, render) == Some(Detection(Strip(raw, StrBlanks), c, Index(w, 0).value))
  {
  }

  /** A well-formed entry `[polygon, (text, score)]` gives the stripped text, the
      score and the polygon as it stands; extra elements are ignored. */
  lemma WellFormedEntryRead(coordinates: Val, text: string, score: real, more: seq<Val>, render: Render)
    requires Strip(text, StrBlanks) != []
    ensures ReadEntry(List([coordinates, Tuple([Str(text), Float(score)])] + more), render)
            == Some(Detection(Strip(text, StrBlanks), score, coordinates))
  {
    var w := [coordinates, Tuple([Str(text), Float(score)])] + more;
    assert w[0] == coordinates && w[1] == Tuple([Str(text), Float(score)]);
  }

  /** A score given as a decimal string, such as "0.95", is read by float(). */
  lemma StringScoreRead(coordinates: Val, text: string, ip: string, fp: string, render: Render)
    requires Strip(text, StrBlanks) != []
    requires AllDigits(ip) && AllDigits(fp) && |ip| + |fp| > 0
    ensures ReadEntry(List([coordinates, List([Str(text), Str(ip + "." + fp)])]), render)
            == Some(Detection(Strip(text, StrBlanks), FixedValue(ip, fp), coordinates))
  {
    assert ToFloat(Str(ip + "." + fp)) == Some(FixedValue(ip, fp)) by {
      ParsePositiveFixedPoint(ip, fp);
    }
    var td := [Str(text), Str(ip + "." + fp)];
    var w := [coordinates, List(td)];
    assert w[0] == coordinates && w[1] == List(td) && td[0] == Str(text);
    EntryOfParts(List(w), text, FixedValue(ip, fp), render);
  }

  /** A score given as an int too large for a double is skipped: float() raises
      OverflowError and the entry's `except` moves on. */
  lemma OverflowingScoreSkipped(coordinates: Val, text: string, n: int, render: Render)
    requires !FitsDouble(n)
    ensures ReadEntry(List([coordinates, List([Str(text), Int(n)])]), render).None?
  {
    var td := [Str(text), Int(n)];
    var w := [coordinates, List(td)];
    assert w[1] == List(td) && td[1] == Int(n);
    BadConfidenceSkipped(List(w), render);
  }

  /** A score given as a string that starts with one of the information
      separators U+001C to U+001F is skipped, though `str.strip()` would remove
      the separator: float() keeps it, raises ValueError, and the entry's
      `except` moves on. */
  lemma SeparatorScoreSkipped(coordinates: Val, text: string, c: char, t: string, render: Render)
    requires 28 <= c as int <= 31
    ensures ReadEntry(List([coordinates, List([Str(text), Str([c] + t)])]), render).None?
  {
    var td := [Str(text), Str([c] + t)];
    var w := [coordinates, List(td)];
    assert w[1] == List(td) && td[1] == Str([c] + t);
    ParseFloatKeepsSeparators(c, t);
    BadConfidenceSkipped(List(w), render);
  }

  /** A malformed entry between two good ones: the records of the first and the
      third, in order, and no failure. */
  lemma MalformedMiddleEntry(e1: Val, e2: Val, e3: Val, d1: Detection, d3: Detection, render: Render)
    requires ReadEntry(e1, render) == Some(d1)
    requires ReadEntry(e2, render).None?
    requires ReadEntry(e3, render) == Some(d3)
    ensures ReadEntries([e1, e2, e3], render) == [d1, d3]
  {
    var ws := [e1, e2, e3];
    ReadEntriesStep(ws, 0, render);
    ReadEntriesStep(ws, 1, render);
    ReadEntriesStep(ws, 2, render);
    assert ws[3..] == [];
    assert ws[0] == e1 && ws[1] == e2 && ws[2] == e3;
  }
}

=== FILE: orientation.dfy ===
/** The orientation heuristic: a text block's polygon is labelled horizontal,
    vertical or rotated from its bounding-box aspect ratio and the direction of
    its first edge. */
module Orientation {
  import opened Wrappers
  import opened PyValue

  datatype Point = Point(x: real, y: real)

  datatype Label = Horizontal | Vertical | Rotated

  /** Above this height/width ratio a block is vertical whatever its angle. */
  const TallAspect: real := 2.5
  /** Above this ratio a block that is not rotated is vertical. */
  const VerticalAspect: real := 1.8
  /** A first edge strictly between these angles (degrees) marks a rotated block. */
  const RotatedFrom: real := 25.0
  const RotatedTo: real := 155.0

  /** `abs(arctan2(dy, dx)) * 180 / pi` for an edge `(dx, dy)`. Floating-point
      trigonometry is not modelled: the caller supplies the function. */
  type EdgeAngle = (real, real) -> real

  /** What is evidently true of the angle of an edge: it lies in [0, 180]; a
      rightward horizontal edge has angle 0, a leftward one 180, and a vertical
      edge 90. */
  ghost predicate IsEdgeAngle(angle: EdgeAngle) {
    && (forall dx, dy :: 0.0 <= angle(dx, dy) <= 180.0)
    && (forall dx :: dx > 0.0 ==> angle(dx, 0.0) == 0.0)
    && (forall dx :: dx < 0.0 ==> angle(dx, 0.0) == 180.0)
    && (forall dy :: dy != 0.0 ==> angle(0.0, dy) == 90.0)
  }

  function Max(xs: seq<real>): (m: real)
    requires |xs| > 0
    ensures forall i :: 0 <= i < |xs| ==> xs[i] <= m
    ensures exists i :: 0 <= i < |xs| && xs[i] == m
  {
    if |xs| == 1 then xs[0]
    else
      var rest := Max(xs[1..]);
      assert forall i :: 1 <= i < |xs| ==> xs[i] == xs[1..][i - 1];
      if xs[0] >= rest then xs[0] else rest
  }

  function Min(xs: seq<real>): (m: real)
    requires |xs| > 0
    ensures forall i :: 0 <= i < |xs| ==> m <= xs[i]
    ensures exists i :: 0 <= i < |xs| && xs[i] == m
  {
    if |xs| == 1 then xs[0]
    else
      var rest := Min(xs[1..]);
      assert forall i :: 1 <= i < |xs| ==> xs[i] == xs[1..][i - 1];
      if xs[0] <= rest then xs[0] else rest
  }

  function Xs(poly: seq<Point>): (r: seq<real>)
    ensures |r| == |poly| && forall i :: 0 <= i < |poly| ==> r[i] == poly[i].x
  {
    seq(|poly|, i requires 0 <= i < |poly| => poly[i].x)
  }

  function Ys(poly: seq<Point>): (r: seq<real>)
    ensures |r| == |poly| && forall i :: 0 <= i < |poly| ==> r[i] == poly[i].y
  {
    seq(|poly|, i requires 0 <= i < |poly| => poly[i].y)
  }

  /** Horizontal extent of the polygon's bounding box. */
  function Width(poly: seq<Point>): (w: real)
    requires |poly| > 0
    ensures w >= 0.0
  {
    Max(Xs(poly)) - Min(Xs(poly))
  }

  /** Vertical extent of the polygon's bounding box. */
  function Height(poly: seq<Point>): (h: real)
    requires |poly| > 0
    ensures h >= 0.0
  {
    Max(Ys(poly)) - Min(Ys(poly))
  }

  /** Angle of the edge from the first to the second point. */
  function FirstEdgeAngle(poly: seq<Point>, angle: EdgeAngle): real
    requires |poly| >= 2
  {
    angle(poly[1].x - poly[0].x, poly[1].y - poly[0].y)
  }

  /** The classification of a polygon of real points, in the source's precedence. */
  function Classify(poly: seq<Point>, angle: EdgeAngle): (l: Label)
    ensures l != Horizontal ==> |poly| >= 4
    ensures l == Rotated ==> Width(poly) > 0.0 && RotatedFrom < FirstEdgeAngle(poly, angle) < RotatedTo
  {
    if |poly| < 4 then Horizontal
    else if Width(poly) == 0.0 then Vertical
    else
      var aspect := Height(poly) / Width(poly);
      var a := FirstEdgeAngle(poly, angle);
      if aspect > TallAspect then Vertical
      else if RotatedFrom < a < RotatedTo then Rotated
      else if aspect > VerticalAspect then Vertical
      else Horizontal
  }

  /** Reads one point `p`: `p[0]` and `p[1]` must exist and be numbers, otherwise
      the comprehension or the arithmetic on it raises. */
  function ToPoint(p: Val): Option<Point> {
    match (Index(p, 0), Index(p, 1))
    case (Some(a), Some(b)) =>
      (match (AsNumber(a), AsNumber(b))
       case (Some(x), Some(y)) => Some(Point(x, y))
       case _ => None)
    case _ => None
  }

  /** Reads a polygon: every element of an iterable value must be a point. */
  function ToPolygon(v: Val): (r: Option<seq<Point>>)
    ensures r.Some? ==> Iter(v).Some? && |r.value| == |Iter(v).value|
    ensures r.Some? ==> forall i :: 0 <= i < |r.value| ==> ToPoint(Iter(v).value[i]) == Some(r.value[i])
  {
    match Iter(v)
    case None => None
    case Some(ps) => ToPoints(ps)
  }

  function ToPoints(ps: seq<Val>): (r: Option<seq<Point>>)
    ensures r.Some? ==> |r.value| == |ps|
    ensures r.Some? ==> forall i :: 0 <= i < |ps| ==> ToPoint(ps[i]) == Some(r.value[i])
    ensures r.None? ==> exists i :: 0 <= i < |ps| && ToPoint(ps[i]).None?
  {
    if |ps| == 0 then Some([])
    else
      match (ToPoint(ps[0]), ToPoints(ps[1..]))
      case (Some(p), Some(rest)) =>
        assert forall i :: 1 <= i < |ps| ==> ps[i] == ps[1..][i - 1];
        Some([p] + rest)
      case (None, _) => None
      case (_, None) =>
        var j :| 0 <= j < |ps[1..]| && ToPoint(ps[1..][j]).None?;
        assert ToPoint(ps[j + 1]).None?;
        None
  }

  /** `detect_text_orientation_improved(coordinates)`: fewer than four points, or
      any error while reading them, gives `Horizontal`. */
  function DetectOrientation(coords: Val, angle: EdgeAngle): (l: Label)
    ensures l != Horizontal ==> ToPolygon(coords).Some? && |ToPolygon(coords).value| >= 4
  {
    match Len(coords)
    case None => Horizontal
    case Some(n) =>
      if n < 4 then Horizontal
      else
        match ToPolygon(coords)
        case None => Horizontal
        case Some(poly) => Classify(poly, angle)
  }

  // ---------------------------------------------------------------------------
  // Properties
  // ---------------------------------------------------------------------------

  /** Anything that is not a sequence of at least four numeric points is horizontal. */
  lemma DegenerateIsHorizontal(coords: Val, angle: EdgeAngle)
    requires Len(coords).None? || Len(coords).value < 4 || ToPolygon(coords).None?
    ensures DetectOrientation(coords, angle) == Horizontal
  {
  }

  /** On a readable polygon the Python function and the classifier agree. */
  lemma DetectReadsPolygon(coords: Val, angle: EdgeAngle)
    requires ToPolygon(coords).Some?
    ensures DetectOrientation(coords, angle) == Classify(ToPolygon(coords).value, angle)
  {
  }

  /** A polygon whose points all share one x coordinate is vertical. */
  lemma ZeroWidthIsVertical(poly: seq<Point>, angle: EdgeAngle)
    requires |poly| >= 4
    requires forall i :: 0 <= i < |poly| ==> poly[i].x == poly[0].x
    ensures Classify(poly, angle) == Vertical
  {
    var xs := Xs(poly);
    var i :| 0 <= i < |xs| && xs[i] == Max(xs);
    var j :| 0 <= j < |xs| && xs[j] == Min(xs);
    assert Width(poly) == 0.0;
  }

  /** A block more than 2.5 times as tall as wide is vertical, whatever its angle. */
  lemma TallIsVertical(poly: seq<Point>, angle: EdgeAngle)
    requires |poly| >= 4 && Width(poly) > 0.0
    requires Height(poly) > TallAspect * Width(poly)
    ensures Classify(poly, angle) == Vertical
  {
    AspectAbove(Height(poly), Width(poly), TallAspect);
  }

  /** Exactly when a polygon is rotated: at least four points, a non-degenerate
      box no taller than 2.5 times its width, and a first edge strictly between
      25 and 155 degrees. */
  lemma RotatedIff(poly: seq<Point>, angle: EdgeAngle)
    ensures Classify(poly, angle) == Rotated <==>
      && |poly| >= 4 && Width(poly) > 0.0
      && Height(poly) <= TallAspect * Width(poly)
      && RotatedFrom < FirstEdgeAngle(poly, angle) < RotatedTo
  {
    if |poly| >= 4 && Width(poly) > 0.0 {
      AspectAbove(Height(poly), Width(poly), TallAspect);
    }
  }

  /** Exactly when a polygon is vertical: a zero-width box, a box more than 2.5
      times as tall as wide, or one more than 1.8 times as tall as wide whose
      first edge is not in the rotated range. */
  lemma VerticalIff(poly: seq<Point>, angle: EdgeAngle)
    ensures Classify(poly, angle) == Vertical <==>
      && |poly| >= 4
      && (|| Width(poly) == 0.0
          || Height(poly) > TallAspect * Width(poly)
          || (&& !(RotatedFrom < FirstEdgeAngle(poly, angle) < RotatedTo)
              && Height(poly) > VerticalAspect * Width(poly)))
  {
    if |poly| >= 4 && Width(poly) > 0.0 {
      AspectAbove(Height(poly), Width(poly), TallAspect);
      AspectAbove(Height(poly), Width(poly), VerticalAspect);
    }
  }

  /** Exactly when a polygon is horizontal: fewer than four points, or a box at
      most 1.8 times as tall as wide whose first edge is outside the rotated range. */
  lemma HorizontalIff(poly: seq<Point>, angle: EdgeAngle)
    ensures Classify(poly, angle) == Horizontal <==>
      || |poly| < 4
      || (&& Width(poly) > 0.0
          && Height(poly) <= VerticalAspect * Width(poly)
          && !(RotatedFrom < FirstEdgeAngle(poly, angle) < RotatedTo))
  {
    if |poly| >= 4 && Width(poly) > 0.0 {
      AspectAbove(Height(poly), Width(poly), TallAspect);
      AspectAbove(Height(poly), Width(poly), VerticalAspect);
    }
  }

  lemma AspectAbove(h: real, w: real, t: real)
    requires w > 0.0
    ensures h / w > t <==> h > t * w
  {
    assert h / w * w == h;
    if h / w > t {
      assert h / w * w > t * w;
    }
  }

  function Translate(poly: seq<Point>, dx: real, dy: real): (r: seq<Point>)
    ensures |r| == |poly|
    ensures forall i :: 0 <= i < |poly| ==> r[i] == Point(poly[i].x + dx, poly[i].y + dy)
  {
    seq(|poly|, i requires 0 <= i < |poly| => Point(poly[i].x + dx, poly[i].y + dy))
  }

  lemma MaxShift(xs: seq<real>, ys: seq<real>, d: real)
    requires |xs| == |ys| > 0
    requires forall i :: 0 <= i < |xs| ==> ys[i] == xs[i] + d
    ensures Max(ys) == Max(xs) + d && Min(ys) == Min(xs) + d
  {
    var i :| 0 <= i < |xs| && xs[i] == Max(xs);
    var j :| 0 <= j < |ys| && ys[j] == Max(ys);
    assert ys[i] <= Max(ys) && xs[j] <= Max(xs);
    var k :| 0 <= k < |xs| && xs[k] == Min(xs);
    var l :| 0 <= l < |ys| && ys[l] == Min(ys);
    assert ys[k] >= Min(ys) && xs[l] >= Min(xs);
  }

  lemma TranslateExtents(poly: seq<Point>, dx: real, dy: real)
    requires |poly| > 0
    ensures Width(Translate(poly, dx, dy)) == Width(poly)
    ensures Height(Translate(poly, dx, dy)) == Height(poly)
  {
    var moved := Translate(poly, dx, dy);
    MaxShift(Xs(poly), Xs(moved), dx);
    MaxShift(Ys(poly), Ys(moved), dy);
  }

  lemma TranslateFirstEdge(poly: seq<Point>, dx: real, dy: real, angle: EdgeAngle)
    requires |poly| >= 2
    ensures FirstEdgeAngle(Translate(poly, dx, dy), angle) == FirstEdgeAngle(poly, angle)
  {
    var moved := Translate(poly, dx, dy);
    assert moved[1] == Point(poly[1].x + dx, poly[1].y + dy);
    assert moved[0] == Point(poly[0].x + dx, poly[0].y + dy);
    assert moved[1].x - moved[0].x == poly[1].x - poly[0].x;
    assert moved[1].y - moved[0].y == poly[1].y - poly[0].y;
  }

  /** The label depends only on the size of the box and on the first edge's angle. */
  lemma ClassifyBySummary(p: seq<Point>, q: seq<Point>, angle: EdgeAngle)
    requires |p| >= 4 && |q| >= 4
    requires Width(p) == Width(q) && Height(p) == Height(q)
    requires FirstEdgeAngle(p, angle) == FirstEdgeAngle(q, angle)
    ensures Classify(p, angle) == Classify(q, angle)
  {
  }

  /** Moving a polygon does not change its label. */
  lemma TranslationInvariant(poly: seq<Point>, dx: real, dy: real, angle: EdgeAngle)
    ensures Classify(Translate(poly, dx, dy), angle) == Classify(poly, angle)
  {
    if |poly| >= 4 {
      TranslateExtents(poly, dx, dy);
      TranslateFirstEdge(poly, dx, dy, angle);
      ClassifyBySummary(Translate(poly, dx, dy), poly, angle);
    }
  }

  /** An axis-aligned `w` by `h` box listed from its lower-left corner, first edge
      to the right. */
  function Box(x: real, y: real, w: real, h: real): seq<Point> {
    [Point(x, y), Point(x + w, y), Point(x + w, y + h), Point(x, y + h)]
  }

  /** The same box listed from its lower-left corner, first edge upwards. */
  function BoxUp(x: real, y: real, w: real, h: real): seq<Point> {
    [Point(x, y), Point(x, y + h), Point(x + w, y + h), Point(x + w, y)]
  }

  lemma Extent4(xs: seq<real>, lo: real, hi: real)
    requires |xs| == 4 && lo <= hi
    requires forall i :: 0 <= i < 4 ==> xs[i] == lo || xs[i] == hi
    requires (xs[0] == lo || xs[1] == lo || xs[2] == lo || xs[3] == lo)
    requires (xs[0] == hi || xs[1] == hi || xs[2] == hi || xs[3] == hi)
    ensures Max(xs) == hi && Min(xs) == lo
  {
    var i :| 0 <= i < |xs| && xs[i] == Max(xs);
    var j :| 0 <= j < |xs| && xs[j] == Min(xs);
  }

  lemma BoxExtents(x: real, y: real, w: real, h: real)
    requires w >= 0.0 && h >= 0.0
    ensures Width(Box(x, y, w, h)) == w && Height(Box(x, y, w, h)) == h
  {
    var xs := Xs(Box(x, y, w, h));
    assert xs[0] == x && xs[1] == x + w && xs[2] == x + w && xs[3] == x;
    Extent4(xs, x, x + w);
    var ys := Ys(Box(x, y, w, h));
    assert ys[0] == y && ys[1] == y && ys[2] == y + h && ys[3] == y + h;
    Extent4(ys, y, y + h);
  }

  lemma BoxUpExtents(x: real, y: real, w: real, h: real)
    requires w >= 0.0 && h >= 0.0
    ensures Width(BoxUp(x, y, w, h)) == w && Height(BoxUp(x, y, w, h)) == h
  {
    var xs := Xs(BoxUp(x, y, w, h));
    assert xs[0] == x && xs[1] == x && xs[2] == x + w && xs[3] == x + w;
    Extent4(xs, x, x + w);
    var ys := Ys(BoxUp(x, y, w, h));
    assert ys[0] == y && ys[1] == y + h && ys[2] == y + h && ys[3] == y;
    Extent4(ys, y, y + h);
  }

  /** A box whose first edge runs right: horizontal up to 1.8 times as tall as
      wide (a square, say), vertical beyond. */
  lemma BoxExamples(x: real, y: real, w: real, h: real, angle: EdgeAngle)
    requires IsEdgeAngle(angle)
    requires w > 0.0 && h > 0.0
    ensures h <= VerticalAspect * w ==> Classify(Box(x, y, w, h), angle) == Horizontal
    ensures VerticalAspect * w < h ==> Classify(Box(x, y, w, h), angle) == Vertical
  {
    var p := Box(x, y, w, h);
    BoxExtents(x, y, w, h);
    assert p[1].x - p[0].x == w && p[1].y - p[0].y == 0.0;
    assert FirstEdgeAngle(p, angle) == 0.0;
    AspectAbove(h, w, TallAspect);
    AspectAbove(h, w, VerticalAspect);
  }

  /** A box whose first edge runs up: rotated up to 2.5 times as tall as wide (a
      square, say), vertical beyond. */
  lemma BoxUpExamples(x: real, y: real, w: real, h: real, angle: EdgeAngle)
    requires IsEdgeAngle(angle)
    requires w > 0.0 && h > 0.0
    ensures h <= TallAspect * w ==> Classify(BoxUp(x, y, w, h), angle) == Rotated
    ensures TallAspect * w < h ==> Classify(BoxUp(x, y, w, h), angle) == Vertical
  {
    var p := BoxUp(x, y, w, h);
    BoxUpExtents(x, y, w, h);
    assert p[1].x - p[0].x == 0.0 && p[1].y - p[0].y == h;
    assert FirstEdgeAngle(p, angle) == 90.0;
    AspectAbove(h, w, TallAspect);
  }

  /** A box handed over as nested Python lists of integers reads as that box. */
  lemma BoxFromPythonLists(x: int, y: int, w: int, h: int)
    ensures ToPolygon(List([List([Int(x), Int(y)]), List([Int(x + w), Int(y)]),
                            List([Int(x + w), Int(y + h)]), List([Int(x), Int(y + h)])]))
            == Some(Box(x as real, y as real, w as real, h as real))
  {
    var ps := [List([Int(x), Int(y)]), List([Int(x + w), Int(y)]),
               List([Int(x + w), Int(y + h)]), List([Int(x), Int(y + h)])];
    var box := Box(x as real, y as real, w as real, h as real);
    assert (x + w) as real == x as real + w as real && (y + h) as real == y as real + h as real;
    assert forall i :: 0 <= i < 4 ==> ToPoint(ps[i]) == Some(box[i]);
    var r := ToPolygon(List(ps));
    assert r.Some?;
    assert r.value == box;
  }

  /** Two points are too few to classify, even for a tall edge. */
  lemma TwoPointsExample(v: Val, angle: EdgeAngle)
    requires v == List([List([Int(0), Int(0)]), List([Int(0), Int(30)])])
    ensures DetectOrientation(v, angle) == Horizontal
  {
    assert Len(v) == Some(2);
  }
}

=== FILE: pytext.dfy ===
/** Python string operations the server relies on: `str.strip()`, the ASCII part
    of `str.lower()`, and the decimal literals `float(str)` accepts. */
module PyText {
  import opened Wrappers

  // ---------------------------------------------------------------------------
  // Whitespace and strip
  // ---------------------------------------------------------------------------

  /** The characters Python's `str.isspace` treats as white space. */
  predicate IsSpace(c: char) {
    var n := c as int;
    (9 <= n <= 13) || (28 <= n <= 32) || n == 0x85 || n == 0xA0 || n == 0x1680
    || (0x2000 <= n <= 0x200A) || n == 0x2028 || n == 0x2029 || n == 0x202F
    || n == 0x205F || n == 0x3000
  }

  /** Which white space a strip removes. `str.strip()` removes every `str.isspace`
      character. `float()` first turns non-ASCII white space into ' ' and then
      strips ASCII white space only, so it keeps the information separators
      U+001C to U+001F, which `str.isspace` counts as white space. */
  datatype Blanks = StrBlanks | FloatBlanks

  predicate IsBlank(c: char, k: Blanks) {
    IsSpace(c) && (k == StrBlanks || !(28 <= c as int <= 31))
  }

  predicate AllBlank(s: string, k: Blanks) {
    forall i :: 0 <= i < |s| ==> IsBlank(s[i], k)
  }

  /** Neither end of `s` is white space of kind `k`. */
  predicate IsStripped(s: string, k: Blanks) {
    |s| == 0 || (!IsBlank(s[0], k) && !IsBlank(s[|s| - 1], k))
  }

  /** Index of the first character at or after `i` that is not white space, or `|s|`. */
  function SkipSpace(s: string, i: nat, k: Blanks): (n: nat)
    requires i <= |s|
    ensures i <= n <= |s|
    ensures forall j :: i <= j < n ==> IsBlank(s[j], k)
    ensures n < |s| ==> !IsBlank(s[n], k)
    decreases |s| - i
  {
    if i == |s| || !IsBlank(s[i], k) then i else SkipSpace(s, i + 1, k)
  }

  /** One past the last character before `i` that is not white space, or `lo`. */
  function SkipSpaceBack(s: string, lo: nat, i: nat, k: Blanks): (n: nat)
    requires lo <= i <= |s|
    ensures lo <= n <= i
    ensures forall j :: n <= j < i ==> IsBlank(s[j], k)
    ensures n > lo ==> !IsBlank(s[n - 1], k)
    decreases i
  {
    if i == lo || !IsBlank(s[i - 1], k) then i else SkipSpaceBack(s, lo, i - 1, k)
  }

  /** The slice of `s` left after removing white space of kind `k` at both ends:
      `s.strip()` for `StrBlanks`, what `float(s)` parses for `FloatBlanks`. */
  function Strip(s: string, k: Blanks): (r: string)
    ensures IsStripped(r, k)
    ensures |r| <= |s|
  {
    var lo := SkipSpace(s, 0, k);
    s[lo..SkipSpaceBack(s, lo, |s|, k)]
  }

  /** What strip removes is white space, and what it keeps is one contiguous slice. */
  lemma StripIsSlice(s: string, k: Blanks)
    ensures var r := Strip(s, k);
            exists i :: 0 <= i && i + |r| <= |s| && r == s[i..i + |r|]
                        && AllBlank(s[..i], k) && AllBlank(s[i + |r|..], k)
  {
    var lo := SkipSpace(s, 0, k);
    var hi := SkipSpaceBack(s, lo, |s|, k);
    assert Strip(s, k) == s[lo..hi];
    assert AllBlank(s[..lo], k) && AllBlank(s[hi..], k);
  }

  /** Strip undoes padding: surrounding a stripped string with white space and
      stripping gives the string back. */
  lemma StripOfPadded(a: string, t: string, b: string, k: Blanks)
    requires AllBlank(a, k) && AllBlank(b, k) && IsStripped(t, k)
    ensures Strip(a + t + b, k) == t
  {
    var s := a + t + b;
    var lo := SkipSpace(s, 0, k);
    var hi := SkipSpaceBack(s, lo, |s|, k);
    forall i | 0 <= i < |a| ensures IsBlank(s[i], k) { assert s[i] == a[i]; }
    forall i | |a| + |t| <= i < |s| ensures IsBlank(s[i], k) { assert s[i] == b[i - |a| - |t|]; }
    if |t| == 0 {
      assert lo == |s|;
    } else {
      assert s[|a|] == t[0];
      assert lo == |a|;
      assert s[|a| + |t| - 1] == t[|t| - 1];
      assert hi == |a| + |t|;
      assert s[lo..hi] == t;
    }
  }

  /** A stripped string is a fixed point of strip, hence strip is idempotent. */
  lemma StripFixpoint(t: string, k: Blanks)
    requires IsStripped(t, k)
    ensures Strip(t, k) == t
  {
    StripOfPadded("", t, "", k);
    assert "" + t + "" == t;
  }

  // ---------------------------------------------------------------------------
  // Lower case
  // ---------------------------------------------------------------------------

  /** ASCII case mapping of one character. */
  function LowerChar(c: char): (r: char)
    ensures 'A' <= c <= 'Z' ==> r as int == c as int + 32
    ensures !('A' <= c <= 'Z') ==> r == c
  {
    if 'A' <= c <= 'Z' then (c as int + 32) as char else c
  }

  /** `s.lower()` restricted to the ASCII letters. */
  function Lower(s: string): (r: string)
    ensures |r| == |s|
    ensures forall i :: 0 <= i < |s| ==> r[i] == LowerChar(s[i])
  {
    seq(|s|, i requires 0 <= i < |s| => LowerChar(s[i]))
  }

  // ---------------------------------------------------------------------------
  // Decimal literals accepted by float(str)
  // ---------------------------------------------------------------------------

  predicate IsDigit(c: char) {
    '0' <= c <= '9'
  }

  predicate AllDigits(s: string) {
    forall i :: 0 <= i < |s| ==> IsDigit(s[i])
  }

  function DigitValue(c: char): nat
    requires IsDigit(c)
  {
    c as int - '0' as int
  }

  /** The number a string of decimal digits denotes (0 for the empty string). */
  function DigitsValue(s: string): nat
    requires AllDigits(s)
  {
    if |s| == 0 then 0 else DigitsValue(s[..|s| - 1]) * 10 + DigitValue(s[|s| - 1])
  }

  function Pow10(n: nat): (r: nat)
    ensures r >= 1
  {
    if n == 0 then 1 else 10 * Pow10(n - 1)
  }

  /** 10 raised to an integer exponent, as a real. */
  function Scale10(e: int): (r: real)
    ensures r > 0.0
  {
    if e >= 0 then Pow10(e) as real else 1.0 / Pow10(-e) as real
  }

  /** Index of the first character of `s` that is in `cs`, or `|s|` when there is none. */
  function FirstIndex(s: string, cs: set<char>): (r: nat)
    ensures r <= |s|
    ensures forall i :: 0 <= i < r ==> s[i] !in cs
    ensures r < |s| ==> s[r] in cs
    decreases |s|
  {
    if |s| == 0 then 0
    else if s[0] in cs then 0
    else 1 + FirstIndex(s[1..], cs)
  }

  /** The value of the fixed-point literal `ip.fp`. */
  function FixedValue(ip: string, fp: string): real
    requires AllDigits(ip) && AllDigits(fp)
  {
    DigitsValue(ip) as real + DigitsValue(fp) as real / Pow10(|fp|) as real
  }

  /** `digits[.digits]` or `.digits`: at least one digit and at most one point. */
  function ParseMantissa(m: string): Option<real> {
    var k := FirstIndex(m, {'.'});
    var ip := m[..k];
    var fp := if k < |m| then m[k + 1..] else "";
    if AllDigits(ip) && AllDigits(fp) && |ip| + |fp| > 0 then
      Some(FixedValue(ip, fp))
    else None
  }

  /** `[+-]digits`, the part after `e` or `E`. */
  function ParseExponent(e: string): Option<int> {
    var neg := |e| > 0 && e[0] == '-';
    var digits := if |e| > 0 && (e[0] == '-' || e[0] == '+') then e[1..] else e;
    if |digits| > 0 && AllDigits(digits) then
      Some(if neg then -(DigitsValue(digits) as int) else DigitsValue(digits) as int)
    else None
  }

  /** A literal without its sign: mantissa, then an optional exponent. */
  function ParseUnsigned(b: string): Option<real> {
    var k := FirstIndex(b, {'e', 'E'});
    if k == |b| then ParseMantissa(b)
    else
      match (ParseMantissa(b[..k]), ParseExponent(b[k + 1..]))
      case (Some(m), Some(e)) => Some(m * Scale10(e))
      case _ => None
  }

  /** A literal with its optional sign, already stripped of white space. */
  function ParseSigned(t: string): Option<real> {
    if |t| == 0 then None
    else
      var body := if t[0] == '-' || t[0] == '+' then t[1..] else t;
      match ParseUnsigned(body)
      case None => None
      case Some(v) => Some(if t[0] == '-' then -v else v)
  }

  /** `float(s)` for a string `s`; `None` where Python raises ValueError. */
  function ParseFloat(s: string): (r: Option<real>)
    ensures r.Some? ==> Strip(s, FloatBlanks) != []
  {
    ParseSigned(Strip(s, FloatBlanks))
  }

  /** A literal that starts with an information separator is rejected. */
  lemma SeparatorRejected(t: string)
    requires |t| > 0 && 28 <= t[0] as int <= 31
    ensures ParseSigned(t) == None
  {
    var k := FirstIndex(t, {'e', 'E'});
    var m := if k == |t| then t else t[..k];
    assert m[0] == t[0];
    var ip := m[..FirstIndex(m, {'.'})];
    assert ip[0] == t[0];
  }

  /** The decimal digits of `n`, most significant first. */
  function NatText(n: nat): (r: string)
    ensures |r| > 0 && AllDigits(r)
  {
    if n < 10 then [('0' as int + n) as char]
    else NatText(n / 10) + [('0' as int + n % 10) as char]
  }

  lemma {:induction false} DigitsOfNatText(n: nat)
    ensures DigitsValue(NatText(n)) == n
  {
    if n >= 10 {
      var r := NatText(n);
      assert r[..|r| - 1] == NatText(n / 10);
      DigitsOfNatText(n / 10);
    }
  }

  lemma {:induction false} MantissaOfFixedPoint(ip: string, fp: string)
    requires AllDigits(ip) && AllDigits(fp) && |ip| + |fp| > 0
    ensures ParseMantissa(ip + "." + fp)
            == Some(FixedValue(ip, fp))
  {
    var m := ip + "." + fp;
    var k := FirstIndex(m, {'.'});
    assert m[|ip|] == '.';
    assert forall i :: 0 <= i < |ip| ==> m[i] == ip[i];
    assert k == |ip|;
    assert m[..k] == ip;
    assert m[k + 1..] == fp;
  }

  /** Without an exponent marker a literal is just its mantissa. */
  lemma UnsignedWithoutExponent(b: string)
    requires forall i :: 0 <= i < |b| ==> b[i] != 'e' && b[i] != 'E'
    ensures ParseUnsigned(b) == ParseMantissa(b)
  {
    assert FirstIndex(b, {'e', 'E'}) == |b|;
  }

  /** The unsigned part of a fixed-point literal `ip.fp` reads as the number it spells. */
  lemma {:induction false} ParseUnsignedFixedPoint(ip: string, fp: string)
    requires AllDigits(ip) && AllDigits(fp) && |ip| + |fp| > 0
    ensures ParseUnsigned(ip + "." + fp)
            == Some(FixedValue(ip, fp))
  {
    var b := ip + "." + fp;
    assert forall i :: 0 <= i < |b| ==> IsDigit(b[i]) || b[i] == '.';
    UnsignedWithoutExponent(b);
    MantissaOfFixedPoint(ip, fp);
  }

  /** A stripped literal without a sign reads as its unsigned part. */
  lemma {:induction false} ParseUnsignedLiteral(b: string, v: real)
    requires IsStripped(b, FloatBlanks) && |b| > 0 && b[0] != '-' && b[0] != '+'
    requires ParseUnsigned(b) == Some(v)
    ensures ParseFloat(b) == Some(v)
  {
    StripFixpoint(b, FloatBlanks);
  }

  /** A fixed-point literal neither starts nor ends with white space, and has no sign. */
  lemma {:induction false} FixedPointShape(ip: string, fp: string)
    requires AllDigits(ip) && AllDigits(fp)
    ensures IsStripped(ip + "." + fp, FloatBlanks)
    ensures (ip + "." + fp)[0] != '-' && (ip + "." + fp)[0] != '+'
  {
    var b := ip + "." + fp;
    assert forall i :: 0 <= i < |b| ==> IsDigit(b[i]) || b[i] == '.';
  }

  /** Parsing a fixed-point literal `ip.fp` gives the number it spells. */
  lemma {:induction false} ParsePositiveFixedPoint(ip: string, fp: string)
    requires AllDigits(ip) && AllDigits(fp) && |ip| + |fp| > 0
    ensures ParseFloat(ip + "." + fp) == Some(FixedValue(ip, fp))
  {
    FixedPointShape(ip, fp);
    ParseUnsignedFixedPoint(ip, fp);
    ParseUnsignedLiteral(ip + "." + fp, FixedValue(ip, fp));
  }

  /** The digits of a natural number read as a mantissa without a point. */
  lemma {:induction false} MantissaOfNatText(n: nat)
    ensures ParseUnsigned(NatText(n)) == Some(n as real)
  {
    var s := NatText(n);
    assert forall i :: 0 <= i < |s| ==> IsDigit(s[i]);
    UnsignedWithoutExponent(s);
    assert FirstIndex(s, {'.'}) == |s|;
    assert s[..|s|] == s;
    DigitsOfNatText(n);
    assert ParseMantissa(s) == Some(FixedValue(s, ""));
  }

  /** `float(str(n))` for a natural number `n` gives `n` back. */
  lemma ParseNatText(n: nat)
    ensures ParseFloat(NatText(n)) == Some(n as real)
  {
    var s := NatText(n);
    assert IsStripped(s, FloatBlanks) by {
      assert IsDigit(s[0]) && IsDigit(s[|s| - 1]);
    }
    MantissaOfNatText(n);
    ParseUnsignedLiteral(s, n as real);
  }

  /** The white space `float()` strips around a literal does not change what
      it reads. */
  lemma ParseFloatIgnoresPadding(a: string, t: string, b: string)
    requires AllBlank(a, FloatBlanks) && AllBlank(b, FloatBlanks) && IsStripped(t, FloatBlanks)
    ensures ParseFloat(a + t + b) == ParseFloat(t)
  {
    StripOfPadded(a, t, b, FloatBlanks);
    StripFixpoint(t, FloatBlanks);
  }

  /** `float()` keeps the information separators U+001C to U+001F that
      `str.strip()` removes: a string that starts with one is not a number. */
  lemma ParseFloatKeepsSeparators(c: char, t: string)
    requires 28 <= c as int <= 31
    ensures ParseFloat([c] + t) == None
  {
    var s := [c] + t;
    var r := Strip(s, FloatBlanks);
    assert SkipSpace(s, 0, FloatBlanks) == 0;
    assert |r| > 0 && r[0] == c;
    SeparatorRejected(r);
  }

  /** A string of `str.isspace` characters is not a number, separators included. */
  lemma ParseFloatRejectsBlank(s: string)
    requires AllBlank(s, StrBlanks)
    ensures ParseFloat(s) == None
  {
    var lo := SkipSpace(s, 0, FloatBlanks);
    var r := s[lo..SkipSpaceBack(s, lo, |s|, FloatBlanks)];
    assert r == Strip(s, FloatBlanks);
    if |r| > 0 {
      assert r[0] == s[lo] && IsBlank(s[lo], StrBlanks) && !IsBlank(s[lo], FloatBlanks);
      SeparatorRejected(r);
    }
  }
}

=== FILE: pyvalue.dfy ===
/** The untyped Python values that flow through the server: the nested result the
    OCR engine returns, and the polygons inside it. Each operation the server
    applies to such a value is modelled here, with `None` standing for the Python
    exception it would raise. */
module PyValue {
  import opened Wrappers
  import opened PyText

  /** A Python value. `Opaque` is an object of another type that defines neither
      `__len__` nor `__iter__`: it is truthy, has no `len`, cannot be iterated or
      indexed, and `float()` rejects it. Dicts, sets, bytes and numpy arrays have
      no constructor of their own: they are sized and iterable, so `Opaque`
      only approximates them. */
  datatype Val =
    | NoneV
    | Bool(b: bool)
    | Int(i: int)
    | Float(f: real)
    | Str(s: string)
    | List(items: seq<Val>)
    | Tuple(items: seq<Val>)
    | Opaque

  /** How `str()` renders a value that is not already a string; `None` when its
      `__str__` raises. Python's rendering of floats and containers is not part of
      the model, so the caller supplies it. */
  type Render = Val -> Option<string>

  /** `bool(v)`. */
  predicate Truthy(v: Val) {
    match v
    case NoneV => false
    case Bool(b) => b
    case Int(i) => i != 0
    case Float(f) => f != 0.0
    case Str(s) => |s| > 0
    case List(xs) => |xs| > 0
    case Tuple(xs) => |xs| > 0
    case Opaque => true
  }

  /** `len(v)`; `None` where Python raises TypeError. */
  function Len(v: Val): Option<nat> {
    match v
    case Str(s) => Some(|s|)
    case List(xs) => Some(|xs|)
    case Tuple(xs) => Some(|xs|)
    case _ => None
  }

  /** The elements `for x in v` visits; `None` where `iter(v)` raises TypeError.
      A string yields its characters as one-character strings. */
  function Iter(v: Val): (r: Option<seq<Val>>)
    ensures r.Some? <==> Len(v).Some?
    ensures r.Some? ==> |r.value| == Len(v).value
    ensures r.Some? && !Truthy(v) ==> r.value == []
  {
    match v
    case Str(s) => Some(seq(|s|, i requires 0 <= i < |s| => Str([s[i]])))
    case List(xs) => Some(xs)
    case Tuple(xs) => Some(xs)
    case _ => None
  }

  /** `v[i]` for a non-negative index; `None` where Python raises TypeError or IndexError. */
  function Index(v: Val, i: nat): (r: Option<Val>)
    ensures r.Some? <==> Len(v).Some? && i < Len(v).value
    ensures r.Some? ==> r.value == Iter(v).value[i]
  {
    match v
    case Str(s) => if i < |s| then Some(Str([s[i]])) else None
    case List(xs) => if i < |xs| then Some(xs[i]) else None
    case Tuple(xs) => if i < |xs| then Some(xs[i]) else None
    case _ => None
  }

  /** `isinstance(v, (list, tuple))`. */
  predicate IsSequence(v: Val) {
    v.List? || v.Tuple?
  }

  /** The value of a number as arithmetic sees it (`bool` is a subclass of `int`);
      `None` for everything that is not a number. */
  function AsNumber(v: Val): Option<real> {
    match v
    case Bool(b) => Some(if b then 1.0 else 0.0)
    case Int(i) => Some(i as real)
    case Float(f) => Some(f)
    case _ => None
  }

  function Pow2(n: nat): (r: nat)
    ensures r > 0
  {
    if n == 0 then 1 else 2 * Pow2(n - 1)
  }

  /** The least magnitude of an int that `float()` rejects with OverflowError.
      The largest finite IEEE 754 double is (2^54 - 2) * 2^970; an int from
      (2^54 - 1) * 2^970 up rounds to 2^1024, which is out of range. */
  const FloatOverflow: int := (Pow2(54) - 1) * Pow2(970)

  /** An int that `float()` converts. */
  predicate FitsDouble(i: int) {
    -FloatOverflow < i < FloatOverflow
  }

  /** `float(v)`; `None` where Python raises TypeError, ValueError or
      OverflowError. */
  function ToFloat(v: Val): (r: Option<real>)
    ensures AsNumber(v).Some? && !(v.Int? && !FitsDouble(v.i)) ==> r == AsNumber(v)
    ensures v.Int? ==> (r.Some? <==> FitsDouble(v.i))
    ensures r.Some? ==> AsNumber(v).Some? || v.Str?
  {
    match v
    case Str(s) => ParseFloat(s)
    case Int(i) => if FitsDouble(i) then Some(i as real) else None
    case _ => AsNumber(v)
  }

  /** `str(v)`: a string is itself, anything else goes through `render`. */
  function PyStr(v: Val, render: Render): (r: Option<string>)
    ensures v.Str? ==> r == Some(v.s)
  {
    if v.Str? then Some(v.s) else render(v)
  }
}

=== FILE: response.dfy ===
/** The summary fields of the `/process` response: the joined text, the block
    count, the orientation tally and the booleans derived from it, and, in
    detailed mode, one block per recognised text. */
module Response {
  import opened Wrappers
  import opened PyText
  import opened PyValue
  import opened Orientation
  import opened Analysis
  import opened Normaliser

  /** One entry of `blocks`: a field absent from the Python dict is `None`. */
  datatype Block = Block(text: string, confidence: Option<real>, coordinates: Option<Val>,
                         orientation: Option<Label>)
  {
    predicate Complete() {
      confidence.Some? && coordinates.Some? && orientation.Some?
    }
  }

  /** The fields detailed mode adds. */
  datatype Details = Details(blocks: seq<Block>, totalCoordinates: nat, orientationDetails: Tally)

  /** The response fields that depend on the recognised blocks. */
  datatype Summary = Summary(text: string, totalBlocks: nat, hasCoordinates: bool,
                             textOrientations: Tally, hasVerticalText: bool,
                             hasRotatedText: bool, details: Option<Details>)

  // ---------------------------------------------------------------------------
  // The joined text
  // ---------------------------------------------------------------------------

  /** `'\n'.join(texts)`. */
  function Join(texts: seq<string>): (s: string)
    ensures |texts| > 0 ==> texts[0] <= s
    ensures |texts| > 1 ==> |s| > |texts[0]| && s[|texts[0]|] == '\n'
  {
    if |texts| == 0 then ""
    else if |texts| == 1 then texts[0]
    else texts[0] + "\n" + Join(texts[1..])
  }

  /** `s.split('\n')`: the pieces between line breaks, at least one. */
  function Split(s: string): (pieces: seq<string>)
    ensures |pieces| > 0
    ensures forall i :: 0 <= i < |pieces| ==> '\n' !in pieces[i]
    decreases |s|
  {
    var k := FirstIndex(s, {'\n'});
    if k == |s| then [s] else [s[..k]] + Split(s[k + 1..])
  }

  /** Splitting the joined text at line breaks gives the texts back, provided
      there is at least one text and none holds a line break itself. */
  lemma {:induction false} SplitJoin(texts: seq<string>)
    requires |texts| > 0
    requires forall i :: 0 <= i < |texts| ==> '\n' !in texts[i]
    ensures Split(Join(texts)) == texts
  {
    var t := texts[0];
    assert FirstIndex(t, {'\n'}) == |t|;
    if |texts| > 1 {
      var s := Join(texts);
      var rest := texts[1..];
      assert s == t + "\n" + Join(rest);
      assert s[|t|] == '\n';
      assert forall i :: 0 <= i < |t| ==> s[i] == t[i];
      assert FirstIndex(s, {'\n'}) == |t|;
      assert s[..|t|] == t;
      assert s[|t| + 1..] == Join(rest);
      SplitJoin(rest);
    }
  }

  // ---------------------------------------------------------------------------
  // Detailed blocks
  // ---------------------------------------------------------------------------

  /** `block_info` for text `i`: the confidence only when `i < len(confidences)`,
      the polygon and its label only when `i < len(coordinates_list)`; `labels`
      holds the label of each polygon. */
  function MakeBlock(i: nat, text: string, confidences: seq<real>, polygons: seq<Val>,
                     labels: seq<Label>): Block
    requires |labels| == |polygons|
  {
    Block(text,
          if i < |confidences| then Some(confidences[i]) else None,
          if i < |polygons| then Some(polygons[i]) else None,
          if i < |polygons| then Some(labels[i]) else None)
  }

  /** The blocks of detailed mode, one per text. */
  function Blocks(texts: seq<string>, confidences: seq<real>, polygons: seq<Val>,
                  labels: seq<Label>): (bs: seq<Block>)
    requires |labels| == |polygons|
    ensures |bs| == |texts|
    ensures forall i :: 0 <= i < |texts| ==> bs[i] == MakeBlock(i, texts[i], confidences, polygons, labels)
  {
    seq(|texts|, i requires 0 <= i < |texts| => MakeBlock(i, texts[i], confidences, polygons, labels))
  }

  /** The loop over `enumerate(text_lines)` building `blocks_with_coords`, which
      classifies each polygon as it goes: one block per text, with the
      confidence and the polygon's label exactly where the guards hold. */
  method BuildBlocks(texts: seq<string>, confidences: seq<real>, polygons: seq<Val>,
                     angle: EdgeAngle) returns (blocks: seq<Block>)
    ensures blocks == Blocks(texts, confidences, polygons, Labels(polygons, angle))
  {
    ghost var labels := Labels(polygons, angle);
    blocks := [];
    for i := 0 to |texts|
      invariant |blocks| == i
      invariant forall j :: 0 <= j < i ==> blocks[j] == MakeBlock(j, texts[j], confidences, polygons, labels)
    {
      var block := Block(texts[i], None, None, None);
      if i < |confidences| {
        block := block.(confidence := Some(confidences[i]));
      }
      if i < |polygons| {
        block := block.(coordinates := Some(polygons[i]),
                        orientation := Some(DetectOrientation(polygons[i], angle)));
      }
      assert block == MakeBlock(i, texts[i], confidences, polygons, labels) by {
        if i < |polygons| {
          LabelsAt(polygons, i, angle);
        }
      }
      blocks := blocks + [block];
    }
  }

  /** Block `i` carries text `i`; it carries confidence `i` exactly when there is
      one, and polygon `i` with the label the classifier gives it exactly when
      there is one. */
  lemma BlockFields(texts: seq<string>, confidences: seq<real>, polygons: seq<Val>,
                    angle: EdgeAngle, i: nat)
    requires i < |texts|
    ensures var b := Blocks(texts, confidences, polygons, Labels(polygons, angle))[i];
            b.text == texts[i] &&
            (b.confidence.Some? <==> i < |confidences|) &&
            (b.confidence.Some? ==> b.confidence.value == confidences[i]) &&
            (b.coordinates.Some? <==> i < |polygons|) &&
            (b.coordinates.Some? ==> b.coordinates.value == polygons[i]) &&
            (b.orientation.Some? <==> i < |polygons|) &&
            (b.orientation.Some? ==> b.orientation.value == DetectOrientation(polygons[i], angle))
  {
    if i < |polygons| {
      LabelsAt(polygons, i, angle);
    }
  }

  /** The labels the blocks carry, for blocks that all carry one. */
  function BlockLabels(bs: seq<Block>): (ls: seq<Label>)
    requires forall i :: 0 <= i < |bs| ==> bs[i].orientation.Some?
    ensures |ls| == |bs|
    ensures forall i :: 0 <= i < |bs| ==> Some(ls[i]) == bs[i].orientation
  {
    seq(|bs|, i requires 0 <= i < |bs| => bs[i].orientation.value)
  }

  // ---------------------------------------------------------------------------
  // The response
  // ---------------------------------------------------------------------------

  /** `request.form.get('detailed', 'false').lower() == 'true'`. */
  function DetailedFlag(field: Option<string>): (detailed: bool)
    ensures field.None? ==> !detailed
    ensures field.Some? ==>
              (detailed <==> |field.value| == 4 &&
                             forall i :: 0 <= i < 4 ==> LowerChar(field.value[i]) == "true"[i])
  {
    Lower(field.GetOr("false")) == "true"
  }

  /** The response fields `process_file` builds from the three lists, the
      tally `orientations` of the polygons and the label of each polygon.
      Detailed mode repeats the tally and has one block per counted text. */
  function BuildSummary(texts: seq<string>, confidences: seq<real>, polygons: seq<Val>,
                        orientations: Tally, labels: seq<Label>, detailed: bool): (r: Summary)
    requires |labels| == |polygons|
    ensures r.details.Some? <==> detailed
    ensures r.details.Some? ==>
              r.details.value.orientationDetails == r.textOrientations &&
              |r.details.value.blocks| == r.totalBlocks == |texts|
  {
    Summary(Join(texts), |texts|, |polygons| > 0, orientations,
            orientations.vertical > 0, orientations.rotated > 0,
            if detailed then Some(Details(Blocks(texts, confidences, polygons, labels), |polygons|, orientations))
            else None)
  }

  /** Built from the tally of the labels, the summary counts every polygon, has
      coordinates exactly when it counts one, and sets each flag exactly when
      its label occurs; in detailed mode with the lists in lockstep, every
      block is complete and carries its text and, in order, the labels. */
  lemma SummaryOfLabels(texts: seq<string>, confidences: seq<real>, polygons: seq<Val>,
                        labels: seq<Label>, detailed: bool)
    requires |labels| == |polygons|
    ensures var r := BuildSummary(texts, confidences, polygons, TallyOf(labels), labels, detailed);
            r.textOrientations.Total() == |polygons| &&
            (r.hasCoordinates <==> r.textOrientations.Total() > 0) &&
            (r.hasVerticalText <==> Vertical in labels) &&
            (r.hasRotatedText <==> Rotated in labels)
    ensures var r := BuildSummary(texts, confidences, polygons, TallyOf(labels), labels, detailed);
            detailed && |texts| == |confidences| == |polygons| ==>
              var bs := r.details.value.blocks;
              (forall i :: 0 <= i < |bs| ==> bs[i].Complete() && bs[i].text == texts[i]) &&
              BlockLabels(bs) == labels
  {
    CountPositiveIff(labels, Vertical);
    CountPositiveIff(labels, Rotated);
    if detailed && |texts| == |confidences| == |polygons| {
      BlocksAgreeWithTally(texts, confidences, polygons, labels);
    }
  }

  /** The tally's vertical and rotated counts are positive exactly when some
      polygon is classified vertical, respectively rotated. */
  lemma FlagsIff(polygons: seq<Val>, angle: EdgeAngle)
    ensures var t := OrientationTally(polygons, angle);
            (t.vertical > 0 <==>
               exists i :: 0 <= i < |polygons| && DetectOrientation(polygons[i], angle) == Vertical) &&
            (t.rotated > 0 <==>
               exists i :: 0 <= i < |polygons| && DetectOrientation(polygons[i], angle) == Rotated)
  {
    SomePolygonHasLabel(polygons, Vertical, angle);
    SomePolygonHasLabel(polygons, Rotated, angle);
  }

  /** With as many polygons and labels as texts, every block carries all fields
      and the blocks' labels, counted, give the tally of the labels. */
  lemma BlocksAgreeWithTally(texts: seq<string>, confidences: seq<real>, polygons: seq<Val>,
                             labels: seq<Label>)
    requires |texts| == |confidences| == |polygons| == |labels|
    ensures var bs := Blocks(texts, confidences, polygons, labels);
            (forall i :: 0 <= i < |bs| ==> bs[i].Complete()) &&
            BlockLabels(bs) == labels &&
            forall l :: Count(BlockLabels(bs), l) == TallyOf(labels).Get(l)
  {
    var bs := Blocks(texts, confidences, polygons, labels);
    assert forall i :: 0 <= i < |bs| ==> bs[i].Complete();
    assert BlockLabels(bs) == labels;
  }

  // ---------------------------------------------------------------------------
  // From the engine's result to the response
  // ---------------------------------------------------------------------------

  /** The summary of records whose polygons carry the given labels. */
  function SummaryWithLabels(ds: seq<Detection>, labels: seq<Label>, detailed: bool): Summary
    requires |labels| == |ds|
  {
    BuildSummary(Texts(ds), Confidences(ds), Polygons(ds), TallyOf(labels), labels, detailed)
  }

  /** The summary of one engine result: normalise, classify, tally, summarise. */
  function Summarise(result: Val, render: Render, detailed: bool, angle: EdgeAngle): (r: Summary)
    ensures r.totalBlocks == |Normalise(result, render)|
    ensures r.textOrientations == OrientationTally(Polygons(Normalise(result, render)), angle)
    ensures r.details.Some? <==> detailed
  {
    var ds := Normalise(result, render);
    SummaryWithLabels(ds, Labels(Polygons(ds), angle), detailed)
  }

  /** Block `i` is complete and carries exactly record `i`. */
  predicate BlocksMatch(bs: seq<Block>, ds: seq<Detection>) {
    |bs| == |ds| &&
    forall i :: 0 <= i < |ds| ==>
      bs[i].Complete() && bs[i].text == ds[i].text &&
      bs[i].confidence == Some(ds[i].confidence) && bs[i].coordinates == Some(ds[i].polygon)
  }

  /** The summary of records in detailed mode: the guards on the confidence and
      the polygon never fail, so block `i` is complete and carries record `i`;
      the blocks' labels, counted, give the tally, whose total is the block
      count. */
  lemma RecordsSummaryComplete(ds: seq<Detection>, labels: seq<Label>)
    requires |labels| == |ds|
    ensures var r := SummaryWithLabels(ds, labels, true);
            r.details.Some? &&
            r.textOrientations.Total() == r.totalBlocks == |ds| &&
            r.details.value.totalCoordinates == r.totalBlocks &&
            BlocksMatch(r.details.value.blocks, ds) &&
            forall l :: Count(BlockLabels(r.details.value.blocks), l) == r.textOrientations.Get(l)
  {
    var bs := Blocks(Texts(ds), Confidences(ds), Polygons(ds), labels);
    BlocksAgreeWithTally(Texts(ds), Confidences(ds), Polygons(ds), labels);
    assert BlocksMatch(bs, ds);
  }

  /** End to end from the engine's result, in detailed mode: block `i` is
      complete and carries record `i` of the normalised result, whose text is
      non-empty and stripped, and the blocks' labels give the tally. */
  lemma SummariseComplete(result: Val, render: Render, angle: EdgeAngle)
    ensures var r := Summarise(result, render, true, angle);
            var ds := Normalise(result, render);
            r.details.Some? &&
            r.textOrientations.Total() == r.totalBlocks == |ds| &&
            CleanTexts(ds) &&
            BlocksMatch(r.details.value.blocks, ds) &&
            forall l :: Count(BlockLabels(r.details.value.blocks), l) == r.textOrientations.Get(l)
  {
    var ds := Normalise(result, render);
    RecordsSummaryComplete(ds, Labels(Polygons(ds), angle));
  }

  /** Some record's polygon receives label `l`. */
  predicate SomeRecordLabelled(ds: seq<Detection>, l: Label, angle: EdgeAngle) {
    exists i :: 0 <= i < |ds| && DetectOrientation(ds[i].polygon, angle) == l
  }

  /** The summary of records reports vertical, respectively rotated, text
      exactly when some record's polygon receives that label. */
  lemma RecordFlagsIff(ds: seq<Detection>, detailed: bool, angle: EdgeAngle)
    ensures var r := SummaryWithLabels(ds, Labels(Polygons(ds), angle), detailed);
            (r.hasVerticalText <==> SomeRecordLabelled(ds, Vertical, angle)) &&
            (r.hasRotatedText <==> SomeRecordLabelled(ds, Rotated, angle))
  {
    var ps := Polygons(ds);
    FlagsIff(ps, angle);
    assert forall i :: 0 <= i < |ds| ==> ps[i] == ds[i].polygon;
  }

  /** End to end from the engine's result: the response reports vertical,
      respectively rotated, text exactly when the heuristic gives that label to
      the polygon of some normalised record. */
  lemma SummaryFlagsIff(result: Val, render: Render, detailed: bool, angle: EdgeAngle)
    ensures var r := Summarise(result, render, detailed, angle);
            (r.hasVerticalText <==> SomeRecordLabelled(Normalise(result, render), Vertical, angle)) &&
            (r.hasRotatedText <==> SomeRecordLabelled(Normalise(result, render), Rotated, angle))
  {
    RecordFlagsIff(Normalise(result, render), detailed, angle);
  }

  /** The joined text splits back into the block texts when none of them holds
      a line break. */
  lemma SummaryTextSplits(ds: seq<Detection>, labels: seq<Label>, detailed: bool)
    requires ds != [] && |labels| == |ds|
    requires forall i :: 0 <= i < |ds| ==> '\n' !in ds[i].text
    ensures Split(SummaryWithLabels(ds, labels, detailed).text) == Texts(ds)
  {
    SplitJoin(Texts(ds));
  }
}

=== FILE: sidelen.dfy ===
/** The detection side length chosen from the image size: at least 960 pixels,
    and 80% of the larger dimension for images bigger than 1200 pixels. */
module SideLen {
  import opened Wrappers

  const DefaultSideLen: int := 960
  const MinScale: real := 0.8

  /** `math.ceil(x)`. */
  function Ceil(x: real): (c: int)
    ensures c as real - 1.0 < x <= c as real
  {
    var f := x.Floor;
    if f as real == x then f else f + 1
  }

  function MaxReal(a: real, b: real): real {
    if a >= b then a else b
  }

  function MaxNat(a: nat, b: nat): nat {
    if a >= b then a else b
  }

  /** The side length for an image of height `h` and width `w`, in exact arithmetic.
      When both are 0 the division raises ZeroDivisionError, which the server
      answers with the default. */
  function SideLenFor(h: nat, w: nat): (r: int)
    ensures r >= DefaultSideLen
    ensures r as real >= MinScale * MaxNat(h, w) as real
  {
    var m := MaxNat(h, w);
    if m == 0 then DefaultSideLen
    else
      var q := DefaultSideLen as real / m as real;
      var s := MaxReal(MinScale, q);
      assert q * m as real == DefaultSideLen as real;
      assert m as real * s >= m as real * q && m as real * s >= m as real * MinScale;
      Ceil(m as real * s)
  }

  /** `calculate_intelligent_side_len`: `shape` is the `(h, w)` of the image read
      from disk, or `None` when it could not be read. */
  function CalculateIntelligentSideLen(shape: Option<(nat, nat)>): (r: int)
    ensures shape.None? ==> r == DefaultSideLen
  {
    match shape
    case None => DefaultSideLen
    case Some((h, w)) => SideLenFor(h, w)
  }

  /** Closed form: 960 up to a larger dimension of 1200 pixels, and the ceiling of
      80% of the larger dimension beyond. */
  lemma SideLenClosedForm(h: nat, w: nat)
    ensures var m := MaxNat(h, w);
            && (m <= 1200 ==> SideLenFor(h, w) == DefaultSideLen)
            && (m > 1200 ==> SideLenFor(h, w) == Ceil(MinScale * m as real))
            && (m > 1200 ==> SideLenFor(h, w) == (4 * m + 4) / 5)
  {
    var m := MaxNat(h, w);
    if m == 0 {
    } else if m <= 1200 {
      var q := DefaultSideLen as real / m as real;
      assert q * m as real == 960.0;
      assert q >= MinScale;
      assert m as real * q == 960.0;
    } else {
      var q := DefaultSideLen as real / m as real;
      assert q * m as real == 960.0;
      assert q < MinScale;
      var c := Ceil(MinScale * m as real);
      assert m as real * MinScale == MinScale * m as real;
      assert 5 * c >= 4 * m && 5 * (c - 1) < 4 * m;
    }
  }

  /** A larger image never gets a smaller side length. */
  lemma SideLenMonotone(h1: nat, w1: nat, h2: nat, w2: nat)
    requires MaxNat(h1, w1) <= MaxNat(h2, w2)
    ensures SideLenFor(h1, w1) <= SideLenFor(h2, w2)
  {
    SideLenClosedForm(h1, w1);
    SideLenClosedForm(h2, w2);
  }
}

=== FILE: upload.dfy ===
/** The upload filter: a file is accepted when the text after its last dot,
    lower-cased, is one of the known image or document extensions. */
module Upload {
  import opened Wrappers
  import opened PyText

  const AllowedExtensions: set<string> := {"png", "jpg", "jpeg", "pdf", "bmp", "tiff", "tif"}

  /** Position of the last occurrence of `c` in `s`. */
  function LastIndex(s: string, c: char): (r: Option<nat>)
    ensures r.None? <==> c !in s
    ensures r.Some? ==> r.value < |s| && s[r.value] == c && c !in s[r.value + 1..]
  {
    if |s| == 0 then None
    else if s[|s| - 1] == c then Some(|s| - 1)
    else
      var r := LastIndex(s[..|s| - 1], c);
      assert s == s[..|s| - 1] + [s[|s| - 1]];
      if r.Some? then assert s[r.value + 1..] == s[..|s| - 1][r.value + 1..] + [s[|s| - 1]]; r
      else r
  }

  /** `s.rsplit(sep, 1)` when it yields two parts: the text before and after the last `sep`. */
  function RSplitOnce(s: string, sep: char): (r: Option<(string, string)>)
    ensures r.None? <==> sep !in s
    ensures r.Some? ==> r.value.0 + [sep] + r.value.1 == s && sep !in r.value.1
  {
    match LastIndex(s, sep)
    case None => None
    case Some(k) =>
      assert s == s[..k] + [sep] + s[k + 1..];
      Some((s[..k], s[k + 1..]))
  }

  /** `allowed_file(filename)`. */
  predicate AllowedFile(filename: string) {
    '.' in filename && Lower(RSplitOnce(filename, '.').value.1) in AllowedExtensions
  }

  /** A name is accepted exactly when it splits as `stem.ext` with no dot in `ext`
      and `ext`, lower-cased, a known extension. */
  lemma AllowedFileIff(filename: string)
    ensures AllowedFile(filename) <==>
      exists stem, ext :: filename == stem + "." + ext && '.' !in ext && Lower(ext) in AllowedExtensions
  {
    if AllowedFile(filename) {
      var (stem, ext) := RSplitOnce(filename, '.').value;
      assert filename == stem + "." + ext;
    }
    if exists stem, ext :: filename == stem + "." + ext && '.' !in ext && Lower(ext) in AllowedExtensions {
      var stem, ext :| filename == stem + "." + ext && '.' !in ext && Lower(ext) in AllowedExtensions;
      SplitAtLastDot(stem, ext);
    }
  }

  /** Splitting `stem.ext` at its last dot gives `ext` back when `ext` has no dot. */
  lemma SplitAtLastDot(stem: string, ext: string)
    requires '.' !in ext
    ensures RSplitOnce(stem + "." + ext, '.') == Some((stem, ext))
  {
    var s := stem + "." + ext;
    var k := LastIndex(s, '.').value;
    forall j | k < j < |s|
      ensures s[j] != '.'
    {
      assert s[j] == s[k + 1..][j - k - 1];
    }
    assert s[|stem|] == '.';
    assert k >= |stem|;
    forall j | |stem| < j < |s|
      ensures s[j] != '.'
    {
      assert s[j] == ext[j - |stem| - 1];
    }
    assert k == |stem|;
    assert s[..k] == stem && s[k + 1..] == ext;
  }

  /** The verdict for `stem.ext` depends only on `ext`. */
  lemma AllowedFileOfParts(stem: string, ext: string)
    requires '.' !in ext
    ensures AllowedFile(stem + "." + ext) <==> Lower(ext) in AllowedExtensions
  {
    SplitAtLastDot(stem, ext);
  }

  /** A name without a dot is rejected, and so is one ending in a dot. */
  lemma NoExtensionRejected(filename: string)
    requires '.' !in filename || filename[|filename| - 1] == '.'
    ensures !AllowedFile(filename)
  {
    if '.' in filename {
      var (stem, ext) := RSplitOnce(filename, '.').value;
      assert |ext| == 0;
    }
  }

  /** An accepted name has a dot followed by at least three characters. */
  lemma AcceptedNameShape(filename: string)
    requires AllowedFile(filename)
    ensures '.' in filename && |filename| >= 4
  {
    var (stem, ext) := RSplitOnce(filename, '.').value;
    assert |Lower(ext)| >= 3;
  }

  /** Upper case in the name never changes the verdict. */
  lemma AllowedFileIgnoresCase(filename: string)
    ensures AllowedFile(Lower(filename)) == AllowedFile(filename)
  {
    if '.' in filename {
      var (stem, ext) := RSplitOnce(filename, '.').value;
      LowerAroundDot(stem, ext);
      LowerKeepsDots(ext);
      SplitAtLastDot(Lower(stem), Lower(ext));
      LowerIdempotent(ext);
    } else {
      LowerKeepsDots(filename);
    }
  }

  lemma LowerAroundDot(stem: string, ext: string)
    ensures Lower(stem + "." + ext) == Lower(stem) + "." + Lower(ext)
  {
    var s := stem + "." + ext;
    assert forall i :: 0 <= i < |s| ==> s[i] == if i < |stem| then stem[i] else if i == |stem| then '.' else ext[i - |stem| - 1];
  }

  lemma LowerKeepsDots(s: string)
    ensures '.' in Lower(s) <==> '.' in s
  {
    var low := Lower(s);
    if '.' in low {
      var i :| 0 <= i < |low| && low[i] == '.';
      assert s[i] == '.';
    }
    if '.' in s {
      var i :| 0 <= i < |s| && s[i] == '.';
      assert low[i] == '.';
    }
  }

  lemma LowerIdempotent(s: string)
    ensures Lower(Lower(s)) == Lower(s)
  {
  }

  /** Names the filter accepts: upper case, a dot inside the stem, an empty stem. */
  lemma AcceptedExamples()
    ensures AllowedFile("scan" + "." + "PDF")
    ensures AllowedFile("a.b" + "." + "tif")
    ensures AllowedFile("" + "." + "png")
  {
    AcceptsUpperCase();
    AcceptsDottedStem();
    AcceptsEmptyStem();
  }

  lemma AcceptsUpperCase()
    ensures AllowedFile("scan" + "." + "PDF")
  {
    assert Lower("PDF") == "pdf";
    AllowedFileOfParts("scan", "PDF");
  }

  lemma AcceptsDottedStem()
    ensures AllowedFile("a.b" + "." + "tif")
  {
    assert Lower("tif") == "tif";
    AllowedFileOfParts("a.b", "tif");
  }

  lemma AcceptsEmptyStem()
    ensures AllowedFile("" + "." + "png")
  {
    assert Lower("png") == "png";
    AllowedFileOfParts("", "png");
  }

  /** A foreign extension is rejected, even after a known one. */
  lemma RejectedExample(stem: string)
    ensures !AllowedFile(stem + "." + "txt")
  {
    assert Lower("txt") == "txt";
    assert "txt" !in AllowedExtensions;
    AllowedFileOfParts(stem, "txt");
  }
}

=== FILE: wrappers.dfy ===
/** The optional value used wherever the Python code can raise and the
    exception is caught: `None` stands for "this step raised". */
module Wrappers {

  datatype Option<+T> = None | Some(value: T) {

    /** The value inside `Some`, or `default` */
    function GetOr(default: T): T {
      match this
      case Some(v) => v
      case None => default
    }
  }
}
